=== FILE: README.md ===
# phy180_lab data pipeline, modelled in Dafny

This project models the data-processing core of a set of physics-lab
scripts about a pendulum. The scripts cover three experiments:

- **Lab 1, the Q factor.** The first extremum whose amplitude has decayed to
  `e^(-pi/3)` of the first amplitude gives the oscillation count, and
  three times that count is Q. A separate decay fit loads a
  time/angle series and derives Q from the fitted decay time and period.
- **Lab 2, period against amplitude.** A tracked angle series is
  reduced to averaged extrema: nearby peaks are merged, the minima are
  found by negating the series, and the output is half-oscillation rows
  (extrema merged by time) or full-oscillation rows. Each point then gets
  an x and a y uncertainty. A polynomial of degree 0 to 6 is fitted,
  optionally only to the points within an angle limit, and the residuals
  are reported.
- **Lab 3, period against string length.** A times file of `!`
  directives and `x start-stop` lines gives one period row per clip. A
  power law `T(L) = k (L0 + L)^n` is fitted by least squares or by
  orthogonal distance regression. A spring correction removes the
  stretch that a hanging mass adds to the length.

Each script is one Dafny module. Shared pieces have modules of their own:
`Wrappers` (`Option`/`Result`), `Text` (`strip`, `split`, `lower`, the
blank/comment line filter), `Stats` (sum, mean, population variance,
gaps), and `DataFile` (the `x y [xu yu]` loader and residual rows that
`lab2/fit.py` and `lab3/fit_length.py` share verbatim).

Numbers are `real`. The scripts use some floating-point and library
routines that the model does not define. Each of them is a
function-typed parameter:

- `float()` and `int()` parsing
- `sqrt`, `**` (as `pow`) and `pi`
- `scipy.signal.find_peaks`
- `scipy.optimize.curve_fit` and `scipy.odr`
- reading a video clip and tracking the pendulum

Where a solver's result must have a shape (one value per initial guess,
a square covariance matrix), a predicate on the parameter says so. Each
way a script can stop that the model covers (an exception, `sys.exit`)
is a `Failure` of a `Result`; the ones it does not cover are listed
under "Left out".

Some details of the code that the model follows as written:

- `averaged_peaks` stores the population standard deviation of a run as
  the merged peak's time uncertainty, with no division by `sqrt(n)`
  (`lab2/process_data.py` line 47).
- Full-oscillation rows walk the minima forward and the maxima backward,
  and carry no uncertainty (`lab2/process_data.py` lines 89-93).
- The half-oscillation merge takes the maximum first when a minimum and a
  maximum have the same time (`lab2/process_data.py` line 71).
- `parse_time` never reaches its `ms` branch (`lab3/genperiod.py` lines
  16-21). This is recorded under Findings below; the period script reads
  its time ranges with the corrected function (see `GenPeriod.TimeRange`
  under "Left out").

## Model

| member | source | states |
|---|---|---|
| Text.Tokens | lab2/fit.py:25 | `split()` yields non-empty tokens with no whitespace inside |
| Text.TokensText | lab2/fit.py:25 | the tokens, glued together, are exactly the line's non-whitespace characters in order |
| Text.TokensOfJoin | lab2/fit.py:25 | words joined by single spaces split back into exactly those words |
| Text.SplitOn | lab3/genperiod.py:94 | `split("-")` yields one more piece than there are separators, and no piece holds a separator |
| Text.JoinSplit | lab3/genperiod.py:94 | joining the pieces back with the separator restores the token |
| Text.Lower | lab3/genperiod.py:79 | ASCII `lower()`: keeps the length, leaves no upper-case ASCII letter, turns each upper-case ASCII letter into its lower-case partner and keeps every other character |
| Text.KeptLineHasField | lab2/process_data.py:16-20 | a line that survives the blank/comment filter has a first token, so only `pcs[1]` can be missing |
| Text.KeptFieldsCount | lab2/fit.py:21-24 | the loaders see exactly one entry per line that is not blank and not a `#` comment |
| Stats.MeanWithin | lab2/process_data.py:43-44 | a mean lies between any bounds of its entries |
| Stats.MeanNeg | lab2/process_data.py:59-62 | the mean of the negated angles is the negated mean |
| Stats.MeanOfGaps | lab3/genperiod.py:119-120 | the mean gap between consecutive times is (last - first) / (n - 1) |
| Stats.SingletonVariance | lab2/process_data.py:47 | `np.std` of a single time is 0 |
| Stats.VarianceNonNegative | lab2/process_data.py:47 | the population variance is never negative |
| DataFile.ParseXY | lab2/fit.py:26-27 | a row needs two numeric tokens; the first bad token decides between a bad number and a missing column |
| DataFile.ParsePoint | lab2/fit.py:26-32 | a row with uncertainties succeeds exactly when every present column parses, and holds those values |
| DataFile.ParseRow | lab2/fit.py:26-32 | without `uncert` only x and y are read, and the uncertainty columns are ignored even when malformed |
| DataFile.ParseRows | lab2/fit.py:21-32 | one point per kept row in order; on failure, the error is that of the first failing row and every earlier row parsed |
| DataFile.Load | lab2/fit.py:14-36 | `load_data` (also copied verbatim as `lab3/fit_length.py` lines 9-31) succeeds exactly when every kept line parses, with one point per kept line, values from the tokens and times not shifted |
| DataFile.Residuals | lab2/fit.py:117-123 | a residual row changes only y, to `y - fit(x)` |
| DataFile.ResidualsRoundTrip | lab2/fit.py:117-123 | adding the fit back to the residuals restores the data |
| ProcessData.RunEnd | lab2/process_data.py:37-42 | a run extends while consecutive gaps stay below the threshold and stops at the first gap that does not |
| ProcessData.Bounds | lab2/process_data.py:35-48 | the run boundaries increase strictly from the start to the end of the peaks |
| ProcessData.BoundsPartition | lab2/process_data.py:38-42 | an inner position is a run boundary exactly when the gap before it reaches the threshold |
| ProcessData.BoundsUnique | lab2/process_data.py:35-48 | any increasing boundary list with that property is the one the loop produces |
| ProcessData.SingletonBounds | lab2/process_data.py:38-42 | with strictly increasing times and a non-positive threshold, every peak is its own run |
| ProcessData.ClusterBounds | lab2/process_data.py:36-48 | the clustered output has one merged peak per run, namely the average of that run |
| ProcessData.AveragedPeaks | lab2/process_data.py:30-49 | `averaged_peaks` returns the clustering of the selected peaks |
| ProcessData.AverageRuns | lab2/process_data.py:35-48 | the outer `while` loop computes the clustering, run by run |
| ProcessData.AverageNextRun | lab2/process_data.py:37-48 | one loop step appends the next run's average and moves past the run |
| ProcessData.RunLength | lab2/process_data.py:37-42 | the inner loop counts exactly the run from `i` |
| ProcessData.AppendRun | lab2/process_data.py:43-48 | appending the averaged run keeps the loop invariant |
| ProcessData.ClusteredSingletons | lab2/process_data.py:36-48 | with no gap below the threshold, the output is the peaks themselves with spread `sqrt(0)` |
| ProcessData.MergedWithinRun | lab2/process_data.py:43-47 | each merged time and angle lie within the range of their run, and a run of one peak has spread `sqrt(0)` |
| ProcessData.RunWithin | lab2/process_data.py:43-47 | an averaged run lies between the run's smallest and largest time and angle |
| ProcessData.ClusteredTimesIncrease | lab2/process_data.py:43-48 | merged peak times increase strictly when the peak times do |
| ProcessData.ClusteredPairOrdered | lab2/process_data.py:43-48 | any earlier merged peak is strictly earlier in time |
| ProcessData.OrderedRuns | lab2/process_data.py:43 | an earlier run averages to an earlier time |
| ProcessData.RunTimeWithin | lab2/process_data.py:43 | a run's average time lies between its first and last peak |
| ProcessData.NegateAngles | lab2/process_data.py:62 | `min_y = -min_y` negates only the angles |
| ProcessData.MinimaByNegation | lab2/process_data.py:59-62 | clustering the negated series and negating back equals clustering the series itself |
| ProcessData.NegationFrom | lab2/process_data.py:59-62 | the same from any starting peak |
| ProcessData.RunNegation | lab2/process_data.py:44-62 | averaging a run of negated angles gives the negated average; times and spread are unchanged |
| ProcessData.ShiftToStart | lab2/process_data.py:22-24 | times start at 0 and every difference between two times is preserved |
| ProcessData.LoadSeries | lab2/process_data.py:10-27 | `load_data` gives one time and one angle per kept line, with times measured from the first line |
| ProcessData.PyPrefix | lab2/process_data.py:55-57 | `[:n]` is a prefix of the samples: `n` long, or all of them when there are fewer; for a negative `n`, all but the last `-n`, or none when there are fewer |
| ProcessData.Extrema | lab2/process_data.py:58-62 | maxima cluster the peaks of `y`, minima the peaks of `-y` with angles negated back |
| ProcessData.HalfMerge | lab2/process_data.py:67-84 | the merge loop and its two tail loops compute the merge by time |
| ProcessData.MergeKeepsBothSides | lab2/process_data.py:69-84 | the merge is a permutation of minima and maxima that keeps each side's own order |
| ProcessData.MergePermutes | lab2/process_data.py:69-84 | the merge has every element of both sides exactly once |
| ProcessData.MergeOfKind | lab2/process_data.py:69-84 | filtering the merge by kind gives back the minima and the maxima, each in its original order |
| ProcessData.MergeSorted | lab2/process_data.py:70-78 | merging time-sorted sides is time-sorted, with the maximum first on equal times |
| ProcessData.HalfRows | lab2/process_data.py:86-87 | half-oscillation rows pair each extremum with twice the gap to the next one |
| ProcessData.HalfRowsTelescope | lab2/process_data.py:86-87 | the half-oscillation periods sum to twice the time from the first extremum to the last |
| ProcessData.ZipRows | lab2/process_data.py:90-93 | `zip` stops at its shortest input and pairs entries position by position |
| ProcessData.ForwardRowsContent | lab2/process_data.py:91 | the minima rows are `(min_y[k], min_x[k+1] - min_x[k])` |
| ProcessData.BackwardRowsContent | lab2/process_data.py:92 | the maxima rows go from last to first, each `(max_y[j], max_x[j] - max_x[j-1])` |
| ProcessData.FullRowsContent | lab2/process_data.py:89-93 | full-oscillation rows are the minima rows followed by the maxima rows, n - 1 of each |
| ProcessData.Process | lab2/process_data.py:52-93 | `main` fails exactly when loading fails or when the (optionally truncated) series has no maximum or no minimum (`np.max` of an empty array, line 60); otherwise it writes the half or full rows of the series |
| GenPeriod.ParseTimeAsWritten | lab3/genperiod.py:15-22 | `s` is seconds and `f` is frames at the frame rate, both in ms; any other token is parsed as is |
| GenPeriod.MillisecondsAreSeconds | lab3/genperiod.py:16-21 | a token ending in `ms` goes to the seconds branch, so a parser that rejects a trailing `m` rejects it |
| GenPeriod.MillisecondsRejected | lab3/genperiod.py:16-22 | `250ms` is rejected as written and read as 250 ms by the corrected function |
| GenPeriod.ParseTime | lab3/genperiod.py:15-22 | corrected `parse_time`: `ms`, `s`, `f` and bare numbers each take their own branch |
| GenPeriod.UnitsAgree | lab3/genperiod.py:15-22 | `v ms`, `v s` and a bare `v` read as v, 1000 v and v milliseconds |
| GenPeriod.MillisecondsSuffix | lab3/genperiod.py:20-21 | corrected `parse_time`: any `v` followed by `ms` reads exactly as `v` |
| GenPeriod.SecondsSuffix | lab3/genperiod.py:16-17 | corrected `parse_time`: `v s`, for `v` not ending in `m`, reads as 1000 v, and fails exactly when `v` does not parse |
| GenPeriod.ParseTimeAgrees | lab3/genperiod.py:15-22 | the corrected and the as-written `parse_time` agree on every token that does not end in `ms` |
| GenPeriod.TimeRange | lab3/genperiod.py:93-96 | a range needs exactly one `-` and two valid times (read with the corrected `parse_time`) |
| GenPeriod.TimeRangeOfJoin | lab3/genperiod.py:94-96 | `start-stop` reads back as its two ends |
| GenPeriod.Directive | lab3/genperiod.py:58-80 | a known directive needs an argument (a number for `xval`, `xstep` and `xoffset`, an openable video for `v`); it sets its own variable from that argument and leaves every other variable unchanged; unknown directives (including `echo`) change nothing |
| GenPeriod.XNegateFalse | lab3/genperiod.py:78-79 | `xnegate` turns negation off only for `false` in any letter case |
| GenPeriod.Transform | lab3/genperiod.py:89-91 | undoing the negation and adding back the offset recovers the raw x |
| GenPeriod.TransformInjective | lab3/genperiod.py:89-91 | distinct raw x values stay distinct |
| GenPeriod.StepTimes | lab3/genperiod.py:84-86 | after n `~` lines, `current_x` has advanced by n times `x_step` |
| GenPeriod.TildeSteps | lab3/genperiod.py:84-86 | the (n+1)-th `~` line gets `current_x + n * x_step` |
| GenPeriod.XUncertainty | lab3/genperiod.py:125 | `xu` is the larger of the absolute and the relative x floor |
| GenPeriod.RelativeFloor | lab3/genperiod.py:124 | the relative period floor is never negative |
| GenPeriod.Period | lab3/genperiod.py:116-126 | fewer than two peaks is an error; otherwise the period is the mean gap, and `pu` is one of the three floors and at least each of them |
| GenPeriod.PeriodTelescopes | lab3/genperiod.py:119-120 | the period is (last - first peak time) / (peaks - 1) |
| GenPeriod.PeriodPositive | lab3/genperiod.py:119-120 | with increasing peak times the period is positive |
| GenPeriod.Line | lab3/genperiod.py:57-126 | a directive line changes the state and writes no row; a data line with no video stops the script, one without a second token stops it with a missing token, and one with a video, an x value, a valid range and a clip of at least two peaks (none at time 0) writes exactly that clip's period row |
| GenPeriod.Lines | lab3/genperiod.py:53-126 | blank and comment lines are skipped; a kept line succeeds exactly when its `Line` step and the rest of the file (from the state it leaves) succeed, and then its row, if any, comes first; on success there is exactly one row per data line (kept, and not a `!` directive), each with `xu` and `pu` at least the absolute floors |
| GenPeriod.SkippedOnly | lab3/genperiod.py:53-56 | a file of only blank and comment lines succeeds and writes nothing |
| GenPeriod.Run | lab3/genperiod.py:47-126 | from the initial state, one row per data line, each above the absolute floors |
| GenPeriod.DataBeforeVideo | lab3/genperiod.py:81-83 | a data line before any `!v` stops the script |
| FindQ.Diff | lab1/find_q.py:24-25 | the difference is non-negative exactly when the amplitude has decayed to `mag` |
| FindQ.CheckSpacing | lab1/find_q.py:15-20 | the guard passes exactly when every two consecutive maxima are at least 0.5 s apart |
| FindQ.Osc | lab1/find_q.py:39-47 | the count is i + 1 when the extremum has the sign of the first sample, otherwise i + 0.5 |
| FindQ.ZeroStartIsHalf | lab1/find_q.py:40-46 | a first sample of exactly 0 always counts half a cycle |
| FindQ.Choose | lab1/find_q.py:24-47 | the maximum is chosen when only it has decayed to `mag`, or when both have and it is strictly closer to `mag` (its amplitude is the larger); the chosen extremum is within `mag` |
| FindQ.TieChoosesMinimum | lab1/find_q.py:26-37 | on equal amplitudes the minimum wins |
| FindQ.Scan | lab1/find_q.py:22-51 | the scan finds the first qualifying position, or none when no position up to the shorter list qualifies |
| FindQ.QOf | lab1/find_q.py:53 | Q is 3 i + 3 or 3 i + 1.5, never below 1.5 |
| FindQ.FindQ | lab1/find_q.py:8-53 | error cases in order (no data, no maxima, close maxima, no decayed peak), otherwise the first qualifying extremum and its Q |
| GenUncert.Floor | lab2/gen_uncert.py:13-14 | an uncertainty is the larger of the absolute and the relative floor |
| GenUncert.Widen | lab2/gen_uncert.py:15-18 | widening takes the larger of the uncertainty and the other coordinate's relative uncertainty applied here |
| GenUncert.PointUncert | lab2/gen_uncert.py:12-20 | x is widened first; y is then widened using the new x uncertainty; dividing by a zero coordinate is an error |
| GenUncert.WideningOnlyRaises | lab2/gen_uncert.py:13-18 | each uncertainty is at least its own floor, and equals it without the flags |
| GenUncert.Rows | lab2/gen_uncert.py:12-22 | one row per point in order, or the first failing point's error |
| GenUncert.GenerateUncertainties | lab2/gen_uncert.py:7-22 | succeeds exactly when loading succeeds and no point's division fails; loading errors pass through; one row per loaded point |
| GenUncert.IndependentNeverFails | lab2/gen_uncert.py:13-18 | without the dependency flags no point fails |
| AmplitudeFit.FitFunc | lab2/fit.py:39-67 | `FIT_FUNCS[degree]` is the polynomial with the given coefficients |
| AmplitudeFit.Fit0IsPoly | lab2/fit.py:39-40 | `fit0` is the constant polynomial |
| AmplitudeFit.Fit1IsPoly | lab2/fit.py:43-44 | `fit1` is the degree-1 polynomial |
| AmplitudeFit.Fit2IsPoly | lab2/fit.py:47-48 | `fit2` is the degree-2 polynomial |
| AmplitudeFit.Fit3IsPoly | lab2/fit.py:51-52 | `fit3` is the degree-3 polynomial |
| AmplitudeFit.Fit4IsPoly | lab2/fit.py:55-56 | `fit4` is the degree-4 polynomial |
| AmplitudeFit.Fit5IsPoly | lab2/fit.py:59-60 | `fit5` is the degree-5 polynomial |
| AmplitudeFit.Fit6IsPoly | lab2/fit.py:63-64 | `fit6` is the degree-6 polynomial |
| AmplitudeFit.TopZero | lab2/fit.py:39-64 | a zero top coefficient does not change the polynomial |
| AmplitudeFit.Fit6TopZero | lab2/fit.py:59-64 | `fit6` with `g = 0` is `fit5` |
| AmplitudeFit.Fit0Constant | lab2/fit.py:39-40 | `fit0` ignores the angle |
| AmplitudeFit.Guess | lab2/fit.py:81 | the guess is the period followed by `degree` zeros |
| AmplitudeFit.GuessIsConstant | lab2/fit.py:81 | the initial guess is the constant curve at the guessed period |
| AmplitudeFit.ZipLookup | lab2/fit.py:85-86 | zipping distinct names with values finds each value under its name |
| AmplitudeFit.ParamNamesDistinct | lab2/fit.py:68 | the parameter names are distinct |
| AmplitudeFit.Params | lab2/fit.py:85 | `params` maps each parameter name to its fitted value |
| AmplitudeFit.Stdevs | lab2/fit.py:86 | `stdevs` maps each of the first degree + 1 names to the root of its variance |
| AmplitudeFit.WithinLimit | lab2/fit.py:73-78 | the angle filter keeps only points within the limit |
| AmplitudeFit.WithinLimitKeeps | lab2/fit.py:74-78 | a point survives the filter exactly when it is within the limit |
| AmplitudeFit.WithinLimitAppend | lab2/fit.py:74-78 | the filter works point by point and keeps file order |
| AmplitudeFit.LimitAngles | lab2/fit.py:73-78 | no limit or a zero limit leaves the data alone; any other limit keeps exactly the points within it |
| AmplitudeFit.WithinLimitAll | lab2/fit.py:73-78 | a limit that no point exceeds keeps everything |
| AmplitudeFit.FitPoints | lab2/fit.py:81-123 | degrees above 6 are the `NoSuchDegree` error (line 83, checked before the domain); points with no spread in x are the `FlatDomain` error (`min` of nothing at line 102, or a zero `np.arange` step at line 104); otherwise names, values, deviations and one residual per point against the fitted polynomial |
| AmplitudeFit.AmplitudeFit | lab2/fit.py:71-123 | succeeds exactly when loading succeeds, the degree is at most 6 and the filtered points have a spread in x; the residuals lie within the limit, one per loaded point when there is none |
| DecayFit.ParseArgs | fit_nophi.py:74-85 | the angle format, then the time format, then the frame rate are checked, with defaults `data.txt`, rad, sec, 30 |
| DecayFit.Defaults | fit_nophi.py:75-83 | with no arguments: `data.txt`, radians, seconds, 30 fps |
| DecayFit.Sample | fit_nophi.py:95-104 | a line needs two tokens; frames are divided by the fps; degrees are converted to radians |
| DecayFit.Samples | fit_nophi.py:91-109 | one sample per kept line in order, or the first failure |
| DecayFit.LoadDecay | fit_nophi.py:74-110 | succeeds exactly when the arguments and every kept line parse; argument errors come first; times start at 0 and keep their differences; one angle per kept line |
| DecayFit.ShortLineFails | fit_nophi.py:96-98 | a kept line with one token anywhere makes the load fail |
| DecayFit.QualityFactor | fit_nophi.py:155-160 | Q times T is pi times tau; `u_Q` is one of the two propagated errors, and the larger one for positive fits |
| DecayFit.ScaleMonotone | fit_nophi.py:155 | a larger non-negative relative error carries to a larger absolute one |
| DecayFit.NegativeTauUnderstates | fit_nophi.py:155-160 | with a negative tau, `u_Q` can be below the decay-time error it is meant to cover |
| LengthFit.OdrAgrees | lab3/fit_length.py:34-39 | `odr_fitfunc(p, l)` equals `fitfunc(l, p[0], p[1], p[2])` |
| LengthFit.DoFit | lab3/fit_length.py:42-50 | one value and one deviation per guess; ODR output as is, or `popt` and the roots of the covariance diagonal |
| LengthFit.FitPoints | lab3/fit_length.py:67-104 | the reported `k, n, L0` and their deviations come from the fit, with one residual per point against the fitted law |
| LengthFit.FitLength | lab3/fit_length.py:61-104 | loading errors pass through, and points with no spread in x are an error (lines 81-85); otherwise the fitted parameters and a residual per point |
| CorrectPeriod.ParseAll | lab3/correct_period.py:18 | every token parses, in order, or a bad number |
| CorrectPeriod.Unpack | lab3/correct_period.py:18 | a line needs exactly four numbers; a bad number among the first five tokens is reported before a wrong count |
| CorrectPeriod.BlankLineFails | lab3/correct_period.py:17-18 | a blank line stops the script |
| CorrectPeriod.ReadLines | lab3/correct_period.py:17-18 | one point per line of the file in order, with no line skipped |
| CorrectPeriod.Stretch | lab3/correct_period.py:19 | the stretch times `spring_k` times 1000 equals the mass times g |
| CorrectPeriod.Correction | lab3/correct_period.py:19 | the correction is the predicted change of period; no mass means no correction |
| CorrectPeriod.StretchedBasePositive | lab3/correct_period.py:5-19 | a non-negative mass stretches the string and keeps `L0 + L` positive |
| CorrectPeriod.Correct | lab3/correct_period.py:16-21 | one output per line; x, xu and yu are unchanged, and y is lowered by the correction for x |
| CorrectPeriod.CorrectionRoundTrip | lab3/correct_period.py:19-21 | adding the correction back restores the measured periods |
| CorrectPeriod.NoMassNoChange | lab3/correct_period.py:19-21 | a row with zero mass is written unchanged |

## Left out

- Video capture, the tracker, plotting and printing are not modelled. This covers `cvtrack`, `cv2`, `matplotlib`, `tikzplotlib` and the `echo` and progress prints. A clip's frames are a parameter of `GenPeriod.Env`.
- Command-line parsing through `argparse`/`click`, and file opening, are not modelled. Options are parameters, and files are sequences of lines. `DecayFit.ParseArgs` is the exception: `fit_nophi.py` reads `sys.argv` itself, so it is modelled.
- `scipy.signal.find_peaks`, `scipy.optimize.curve_fit` and `scipy.odr` are not modelled: they are numeric library routines. They are parameters, constrained only in the shape of what they return.
- The exponential-cosine decay model of `fit_nophi.py`, and the plotted best-fit curves, are not modelled. They need `exp` and `cos`. `fit()`'s extraction of three parameters and three diagonal roots is the same as `AmplitudeFit.Stdevs`.
- `mag` in `lab1/find_q.py` is an input: it needs `exp` and `pi`. `lab1/fit.py`, whose `load_data` the script imports, is not part of this model, so `FindQ.FindQ` starts from the loaded series.
- In `lab3/genperiod.py`, the `process_data` module that `averaged_peaks` comes from (it accepts `find_peaks` options) is not part of this model. The model uses the lab 2 `averaged_peaks`, and the options go into the peak-finder parameter.
- The custom `sep` of the loaders is not modelled: tokens are always split on whitespace. Only the ASCII characters that `str.split()` treats as whitespace separate tokens; non-ASCII whitespace is not modelled.
- Text.Lower: only the ASCII letters `A`-`Z` are lowered; every other character is kept. Python's `str.lower()` also lowers non-ASCII capitals, and can lengthen a string (`İ` becomes two code points). The one use, the `xnegate` test against `false`, is unaffected: the only non-ASCII characters whose lower case is ASCII are `İ` (to `i` plus a combining dot) and the Kelvin sign (to `k`), and neither gives a letter of `false`.
- The decimal grammar of `float()`/`int()` and the text format of written numbers are not modelled. Parsers are parameters, and outputs are numbers.
- Rows written before a later line fails are not modelled: a failing run returns only its error.
- GenPeriod.Period: numpy's `u / t` at a merged peak time of 0 gives `inf`/`nan` rather than an exception. The model reports `ZeroPeakTime` instead.
- GenUncert.PointUncert: numpy's division by a zero coordinate gives `inf`/`nan` rather than an exception. The model reports `ZeroY`/`ZeroX` instead.
- DecayFit.QualityFactor: requires a non-zero tau and period. With a zero value the source prints `inf`/`nan`.
- GenPeriod.ParseTime: requires a non-zero frame rate. The script always passes 30.
- GenPeriod.Directive: the path resolution against the times file, and `cv2.VideoCapture`, are folded into the `canOpen` parameter. The model keeps the name as written.
- GenPeriod.Run: states only the row count and the absolute floors on success, not when the file succeeds nor each row's content. Run is `GenPeriod.Lines` from the initial state, and Lines states both, line by line, through `GenPeriod.Line` and `GenPeriod.Period`.
- GenPeriod.TimeRange: reads both ends with the corrected `parse_time` (see Findings), so an end such as `250ms`, which the script as written rejects, is read as milliseconds here. `GenPeriod.ParseTimeAgrees` shows that the two readings agree on every end that does not end in `ms`. `GenPeriod.Line`, `GenPeriod.Lines` and `GenPeriod.Run` inherit this.
- Exceptions raised inside `curve_fit` and `scipy.odr` (for example, fewer points than parameters) are not modelled: the solvers are parameters.
- AmplitudeFit.FitPoints: `FIT_FUNCS[degree]` with a negative degree indexes from the end in Python. Here the degree is a `nat`.
- The `degree == 0` plotting special case in `lab2/fit.py` is not modelled, because it only affects the plot.

## Findings

| source | as written | input that shows it | evidently intended | confidence | as-written member | corrected member |
|---|---|---|---|---|---|---|
| lab3/genperiod.py:16-21 | `parse_time` tests the `s` suffix before the `ms` suffix, so `t[:-2]` is never reached | `"250ms"`: the seconds branch calls `float("250m")`, which fails | `ms` is read as milliseconds, so `"250ms"` is 250 | high; not executed | GenPeriod.ParseTimeAsWritten (with GenPeriod.MillisecondsAreSeconds, GenPeriod.MillisecondsRejected) | GenPeriod.ParseTime (with GenPeriod.UnitsAgree), used by GenPeriod.TimeRange |

=== FILE: amplitude_fit.dfy ===
/** The period-versus-amplitude fit: the data file is loaded with its
    uncertainty columns, optionally restricted to small angles, fitted with
    a polynomial `fit0` .. `fit6` from a guess `[guess_period, 0, ...]`,
    and reported as named parameters, named standard deviations and
    residual rows. */
module AmplitudeFit {
  import opened Wrappers
  import opened Stats
  import opened DataFile

  // ---------------------------------------------------------------------
  // The model functions
  // ---------------------------------------------------------------------

  /** `theta ** n` for a whole exponent. */
  function Pow(theta: real, n: nat): real {
    if n == 0 then 1.0 else theta * Pow(theta, n - 1)
  }

  /** `c[0] + c[1]*theta + c[2]*theta**2 + ...`. */
  function Poly(theta: real, c: seq<real>): real {
    if |c| == 0 then 0.0 else Poly(theta, c[..|c| - 1]) + c[|c| - 1] * Pow(theta, |c| - 1)
  }

  function Fit0(theta: real, t0: real): real {
    t0
  }

  function Fit1(theta: real, t0: real, b: real): real {
    t0 + theta * b
  }

  function Fit2(theta: real, t0: real, b: real, c: real): real {
    t0 + theta * b + Pow(theta, 2) * c
  }

  function Fit3(theta: real, t0: real, b: real, c: real, d: real): real {
    t0 + theta * b + Pow(theta, 2) * c + Pow(theta, 3) * d
  }

  function Fit4(theta: real, t0: real, b: real, c: real, d: real, e: real): real {
    t0 + theta * b + Pow(theta, 2) * c + Pow(theta, 3) * d + Pow(theta, 4) * e
  }

  function Fit5(theta: real, t0: real, b: real, c: real, d: real, e: real, f: real): real {
    t0 + theta * b + Pow(theta, 2) * c + Pow(theta, 3) * d + Pow(theta, 4) * e + Pow(theta, 5) * f
  }

  function Fit6(theta: real, t0: real, b: real, c: real, d: real, e: real, f: real, g: real): real {
    t0 + theta * b + Pow(theta, 2) * c + Pow(theta, 3) * d + Pow(theta, 4) * e + Pow(theta, 5) * f + Pow(theta, 6) * g
  }

  /** The highest degree `FIT_FUNCS` offers. */
  const MaxDegree: nat := 6

  /** `FIT_FUNCS[degree](theta, *p)`, for a parameter vector of the length
      that function takes. */
  function FitFunc(degree: nat, theta: real, p: seq<real>): (v: real)
    requires degree <= MaxDegree && |p| == degree + 1
    ensures v == Poly(theta, p)
  {
    match degree
    case 0 => Fit0IsPoly(theta, p); Fit0(theta, p[0])
    case 1 => Fit1IsPoly(theta, p); Fit1(theta, p[0], p[1])
    case 2 => Fit2IsPoly(theta, p); Fit2(theta, p[0], p[1], p[2])
    case 3 => Fit3IsPoly(theta, p); Fit3(theta, p[0], p[1], p[2], p[3])
    case 4 => Fit4IsPoly(theta, p); Fit4(theta, p[0], p[1], p[2], p[3], p[4])
    case 5 => Fit5IsPoly(theta, p); Fit5(theta, p[0], p[1], p[2], p[3], p[4], p[5])
    case _ => Fit6IsPoly(theta, p); Fit6(theta, p[0], p[1], p[2], p[3], p[4], p[5], p[6])
  }

  /** One step of `Poly`: the top coefficient times its power of `theta`. */
  lemma PolyStep(theta: real, p: seq<real>)
    requires |p| > 0
    ensures Poly(theta, p) == Poly(theta, p[..|p| - 1]) + p[|p| - 1] * Pow(theta, |p| - 1)
  {
  }

  lemma Fit0IsPoly(theta: real, p: seq<real>)
    requires |p| == 1
    ensures Poly(theta, p) == Fit0(theta, p[0])
  {
    PolyStep(theta, p);
    assert p[..0] == [];
  }

  lemma Fit1IsPoly(theta: real, p: seq<real>)
    requires |p| == 2
    ensures Poly(theta, p) == Fit1(theta, p[0], p[1])
  {
    PolyStep(theta, p);
    Fit0IsPoly(theta, p[..1]);
    assert Pow(theta, 1) == theta;
  }

  lemma Fit2IsPoly(theta: real, p: seq<real>)
    requires |p| == 3
    ensures Poly(theta, p) == Fit2(theta, p[0], p[1], p[2])
  {
    PolyStep(theta, p);
    Fit1IsPoly(theta, p[..2]);
  }

  lemma Fit3IsPoly(theta: real, p: seq<real>)
    requires |p| == 4
    ensures Poly(theta, p) == Fit3(theta, p[0], p[1], p[2], p[3])
  {
    PolyStep(theta, p);
    Fit2IsPoly(theta, p[..3]);
  }

  lemma Fit4IsPoly(theta: real, p: seq<real>)
    requires |p| == 5
    ensures Poly(theta, p) == Fit4(theta, p[0], p[1], p[2], p[3], p[4])
  {
    PolyStep(theta, p);
    Fit3IsPoly(theta, p[..4]);
  }

  lemma Fit5IsPoly(theta: real, p: seq<real>)
    requires |p| == 6
    ensures Poly(theta, p) == Fit5(theta, p[0], p[1], p[2], p[3], p[4], p[5])
  {
    PolyStep(theta, p);
    Fit4IsPoly(theta, p[..5]);
  }

  lemma Fit6IsPoly(theta: real, p: seq<real>)
    requires |p| == 7
    ensures Poly(theta, p) == Fit6(theta, p[0], p[1], p[2], p[3], p[4], p[5], p[6])
  {
    PolyStep(theta, p);
    Fit5IsPoly(theta, p[..6]);
  }

  /** A zero top coefficient drops out: `fitN` with its last parameter 0 is
      `fit(N-1)` on the others. */
  lemma TopZero(theta: real, p: seq<real>)
    ensures Poly(theta, p + [0.0]) == Poly(theta, p)
  {
    PolyStep(theta, p + [0.0]);
    assert (p + [0.0])[..|p|] == p;
  }

  lemma Fit6TopZero(theta: real, t0: real, b: real, c: real, d: real, e: real, f: real)
    ensures Fit6(theta, t0, b, c, d, e, f, 0.0) == Fit5(theta, t0, b, c, d, e, f)
  {
    var p := [t0, b, c, d, e, f];
    Fit5IsPoly(theta, p);
    Fit6IsPoly(theta, p + [0.0]);
    TopZero(theta, p);
  }

  /** `fit0` does not look at the angle. */
  lemma Fit0Constant(theta1: real, theta2: real, t0: real)
    ensures FitFunc(0, theta1, [t0]) == FitFunc(0, theta2, [t0]) == t0
  {
  }

  // ---------------------------------------------------------------------
  // Guess and parameter names
  // ---------------------------------------------------------------------

  /** `[0] * n`. */
  function Zeros(n: nat): (z: seq<real>)
    ensures |z| == n && forall k :: 0 <= k < n ==> z[k] == 0.0
  {
    if n == 0 then [] else [0.0] + Zeros(n - 1)
  }

  /** `[guess_period] + [0] * degree`: the period guess, then a zero for
      every higher coefficient. */
  function Guess(degree: nat, guessPeriod: real): (g: seq<real>)
    ensures |g| == degree + 1 && g[0] == guessPeriod
    ensures forall k :: 1 <= k <= degree ==> g[k] == 0.0
  {
    [guessPeriod] + Zeros(degree)
  }

  /** The guess is the constant `guess_period` as a polynomial of any degree. */
  lemma {:induction false} GuessIsConstant(degree: nat, guessPeriod: real, theta: real)
    ensures Poly(theta, Guess(degree, guessPeriod)) == guessPeriod
  {
    if degree == 0 {
      assert Guess(0, guessPeriod)[..0] == [];
    } else {
      GuessIsConstant(degree - 1, guessPeriod, theta);
      var g := Guess(degree, guessPeriod);
      assert g[..degree] == Guess(degree - 1, guessPeriod);
    }
  }

  /** `PARAM_NAMES`. */
  const ParamNames: seq<string> := ["t0", "b", "c", "d", "e", "f", "g"]

  /** A Python dict built in insertion order, as its `(key, value)` items. */
  type Dict = seq<(string, real)>

  /** `d[key]`: the value stored under `key`, if any. */
  function Lookup(d: Dict, key: string): (v: Option<real>)
    ensures v.Some? <==> exists k :: 0 <= k < |d| && d[k].0 == key
  {
    if |d| == 0 then None
    else if d[0].0 == key then Some(d[0].1)
    else
      var v := Lookup(d[1..], key);
      assert v.Some? ==> exists k :: 0 <= k < |d| && d[k].0 == key by {
        if v.Some? {
          var k :| 0 <= k < |d[1..]| && d[1..][k].0 == key;
          assert d[k + 1].0 == key;
        }
      }
      assert (exists k :: 0 <= k < |d| && d[k].0 == key) ==> v.Some? by {
        if exists k :: 0 <= k < |d| && d[k].0 == key {
          var k :| 0 <= k < |d| && d[k].0 == key;
          assert d[1..][k - 1].0 == key;
        }
      }
      v
  }

  /** `{name: val for name, val in zip(names, values)}`: the shorter
      length decides how many entries there are. */
  function Zip(names: seq<string>, values: seq<real>): (d: Dict)
    ensures |d| == if |names| < |values| then |names| else |values|
    ensures forall k :: 0 <= k < |d| ==> d[k] == (names[k], values[k])
  {
    var n := if |names| < |values| then |names| else |values|;
    seq(n, k requires 0 <= k < n => (names[k], values[k]))
  }

  /** With distinct names every name of the zip looks up its own value. */
  lemma {:induction false} ZipLookup(names: seq<string>, values: seq<real>, k: nat)
    requires forall i, j :: 0 <= i < j < |names| ==> names[i] != names[j]
    requires k < |names| && k < |values|
    ensures Lookup(Zip(names, values), names[k]) == Some(values[k])
  {
    var d := Zip(names, values);
    if k > 0 {
      ZipLookup(names[1..], values[1..], k - 1);
      assert d[1..] == Zip(names[1..], values[1..]);
      assert d[0].0 != names[k];
    }
  }

  lemma ParamNamesDistinct()
    ensures forall i, j :: 0 <= i < j < |ParamNames| ==> ParamNames[i] != ParamNames[j]
  {
  }

  /** `params`: one entry per fitted parameter, under its name. */
  function Params(popt: seq<real>): (d: Dict)
    requires |popt| <= |ParamNames|
    ensures |d| == |popt|
    ensures forall k :: 0 <= k < |popt| ==> Lookup(d, ParamNames[k]) == Some(popt[k])
  {
    ParamNamesDistinct();
    var d := Zip(ParamNames, popt);
    forall k | 0 <= k < |popt|
      ensures Lookup(d, ParamNames[k]) == Some(popt[k])
    {
      ZipLookup(ParamNames, popt, k);
    }
    d
  }

  /** `sqrt(pcov[i, i])` for `i` in `0..n`. */
  function Diagonal(pcov: seq<seq<real>>, n: nat, sqrt: real -> real): (d: seq<real>)
    requires n <= |pcov| && forall i :: 0 <= i < n ==> i < |pcov[i]|
    ensures |d| == n && forall i :: 0 <= i < n ==> d[i] == sqrt(pcov[i][i])
  {
    seq(n, i requires 0 <= i < n => sqrt(pcov[i][i]))
  }

  /** `stdevs`: one entry per coefficient of the chosen degree. */
  function Stdevs(pcov: seq<seq<real>>, degree: nat, sqrt: real -> real): (d: Dict)
    requires degree <= MaxDegree && degree < |pcov| && forall i :: 0 <= i <= degree ==> i < |pcov[i]|
    ensures |d| == degree + 1
    ensures forall k :: 0 <= k <= degree ==> Lookup(d, ParamNames[k]) == Some(sqrt(pcov[k][k]))
  {
    ParamNamesDistinct();
    var diag := Diagonal(pcov, degree + 1, sqrt);
    var d := Zip(ParamNames, diag);
    forall k | 0 <= k <= degree
      ensures Lookup(d, ParamNames[k]) == Some(sqrt(pcov[k][k]))
    {
      ZipLookup(ParamNames, diag, k);
    }
    d
  }

  // ---------------------------------------------------------------------
  // The angle limit
  // ---------------------------------------------------------------------

  /** `np.where(np.abs(x_data) <= limit)` applied to all four columns. */
  function WithinLimit(points: seq<Point>, limit: real): (r: seq<Point>)
    ensures |r| <= |points|
    ensures forall k :: 0 <= k < |r| ==> Abs(r[k].x) <= limit
  {
    if |points| == 0 then []
    else
      var rest := WithinLimit(points[1..], limit);
      if Abs(points[0].x) <= limit then [points[0]] + rest else rest
  }

  /** The filter keeps exactly the rows within the limit: nothing is
      invented and nothing within the limit is dropped. */
  lemma {:induction false} WithinLimitKeeps(points: seq<Point>, limit: real)
    ensures forall p :: p in WithinLimit(points, limit) <==> p in points && Abs(p.x) <= limit
  {
    if |points| > 0 {
      WithinLimitKeeps(points[1..], limit);
      assert forall p :: p in points <==> p == points[0] || p in points[1..];
    }
  }

  /** The filter works row by row and keeps file order: filtering a
      concatenation filters each part. */
  lemma {:induction false} WithinLimitAppend(a: seq<Point>, b: seq<Point>, limit: real)
    ensures WithinLimit(a + b, limit) == WithinLimit(a, limit) + WithinLimit(b, limit)
  {
    if |a| > 0 {
      WithinLimitAppend(a[1..], b, limit);
      assert (a + b)[1..] == a[1..] + b;
    } else {
      assert a + b == b;
    }
  }

  /** `if limit_angles:` — `None` and `0` both leave the data alone; any
      other limit keeps exactly the rows within it. */
  function LimitAngles(points: seq<Point>, limit: Option<real>): (r: seq<Point>)
    ensures |r| <= |points|
    ensures limit.None? || limit.value == 0.0 ==> r == points
    ensures limit.Some? && limit.value != 0.0 ==> forall k :: 0 <= k < |r| ==> Abs(r[k].x) <= limit.value
    ensures limit.Some? && limit.value != 0.0 ==> forall p :: p in r <==> p in points && Abs(p.x) <= limit.value
  {
    if limit.None? || limit.value == 0.0 then points
    else
      WithinLimitKeeps(points, limit.value);
      WithinLimit(points, limit.value)
  }

  /** A limit no point exceeds keeps everything. */
  lemma {:induction false} WithinLimitAll(points: seq<Point>, limit: real)
    requires forall k :: 0 <= k < |points| ==> Abs(points[k].x) <= limit
    ensures WithinLimit(points, limit) == points
  {
    if |points| > 0 {
      WithinLimitAll(points[1..], limit);
    }
  }

  // ---------------------------------------------------------------------
  // The script
  // ---------------------------------------------------------------------

  datatype FitError =
    | LoadFailed(cause: LoadError) // `load_data` raises
    | NoSuchDegree                 // `FIT_FUNCS[degree]` is out of range
    | FlatDomain                   // `min(x_data)` of no rows, or a zero `np.arange` step

  /** The plotted domain `[1.1 min x, 1.1 max x]` has a width: there is a row,
      and not every row has the same x. */
  predicate HasDomain(points: seq<Point>) {
    |points| > 0 && exists k :: 0 <= k < |points| && points[k].x != points[0].x
  }

  /** `optimize.curve_fit(FIT_FUNCS[degree], x, y, p0=guess)`, taken as
      given: the fitted parameters and their covariance matrix. */
  type CurveFit = (nat, seq<Point>, seq<real>) -> Solution

  datatype Solution = Solution(popt: seq<real>, pcov: seq<seq<real>>)

  /** One fitted parameter per guess entry, and a square covariance matrix
      of that size. */
  predicate Shaped(s: Solution, n: nat) {
    |s.popt| == n && |s.pcov| == n && forall i :: 0 <= i < n ==> |s.pcov[i]| == n
  }

  ghost predicate ValidCurveFit(fit: CurveFit) {
    forall d, pts, guess :: Shaped(fit(d, pts, guess), |guess|)
  }

  /** What the script reports: named parameters, named standard deviations,
      and the residual rows it saves. */
  datatype Report = Report(params: Dict, stdevs: Dict, residuals: seq<Point>)

  /** The fit and its report on loaded (and possibly filtered) points. */
  function FitPoints(points: seq<Point>, degree: nat, guessPeriod: real, curveFit: CurveFit,
                     sqrt: real -> real): (r: Result<Report, FitError>)
    requires ValidCurveFit(curveFit)
    ensures r.Success? <==> degree <= MaxDegree && HasDomain(points)
    ensures degree > MaxDegree ==> r == Failure(NoSuchDegree)
    ensures degree <= MaxDegree && !HasDomain(points) ==> r == Failure(FlatDomain)
    ensures r.Success? ==>
              var sol := curveFit(degree, points, Guess(degree, guessPeriod));
              && |r.value.params| == degree + 1 && |r.value.stdevs| == degree + 1
              && (forall k :: 0 <= k <= degree ==> Lookup(r.value.params, ParamNames[k]) == Some(sol.popt[k]))
              && (forall k :: 0 <= k <= degree ==> Lookup(r.value.stdevs, ParamNames[k]) == Some(sqrt(sol.pcov[k][k])))
              && |r.value.residuals| == |points|
              && forall k :: 0 <= k < |points| ==>
                   && r.value.residuals[k].x == points[k].x
                   && r.value.residuals[k].y == points[k].y - Poly(points[k].x, sol.popt)
                   && r.value.residuals[k].xu == points[k].xu && r.value.residuals[k].yu == points[k].yu
  {
    var guess := Guess(degree, guessPeriod);
    if degree > MaxDegree then Failure(NoSuchDegree)
    else if !HasDomain(points) then Failure(FlatDomain)
    else
      var sol := curveFit(degree, points, guess);
      assert Shaped(sol, degree + 1);
      Success(Report(Params(sol.popt), Stdevs(sol.pcov, degree, sqrt),
                     Residuals(points, theta => FitFunc(degree, theta, sol.popt))))
  }

  /** `main` without the plotting: load with uncertainties, apply the angle
      limit, fit and report. */
  function AmplitudeFit(lines: seq<string>, parse: RealParser, degree: nat, guessPeriod: real,
                        limit: Option<real>, curveFit: CurveFit, sqrt: real -> real): (r: Result<Report, FitError>)
    requires ValidCurveFit(curveFit)
    ensures Load(lines, parse, true).Failure? ==> r == Failure(LoadFailed(Load(lines, parse, true).error))
    ensures r.Success? <==>
              && Load(lines, parse, true).Success?
              && degree <= MaxDegree
              && HasDomain(LimitAngles(Load(lines, parse, true).value, limit))
    ensures r.Success? ==>
              var points := Load(lines, parse, true).value;
              var res := r.value.residuals;
              && |res| <= |points|
              && (limit.None? || limit.value == 0.0 ==> |res| == |points|)
              && (limit.Some? && limit.value != 0.0 ==> forall k :: 0 <= k < |res| ==> Abs(res[k].x) <= limit.value)
  {
    var loaded := Load(lines, parse, true);
    if loaded.Failure? then Failure(LoadFailed(loaded.error))
    else FitPoints(LimitAngles(loaded.value, limit), degree, guessPeriod, curveFit, sqrt)
  }
}

=== FILE: correct_period.dfy ===
/** The spring correction for the mass series: a hanging mass of `x` grams
    stretches the string by `x / 1000 * g / spring_k` metres, which by the
    fitted length law lengthens the period; that predicted lengthening is
    subtracted from each measured period. Every line must hold exactly
    `x y xu yu`; there is no skipping of blank or comment lines. */
module CorrectPeriod {
  import opened Wrappers
  import opened Text
  import DataFile
  import LengthFit

  /** Spring constant (N/m), gravity (m/s^2) and the unloaded string length
      (m). */
  const SpringK: real := 194.0
  const G: real := 9.806
  const Length: real := 1.0745

  /** The fitted length law `T(L) = K * (L0 + L)^N`. */
  const K: real := 2.018099069322445
  const N: real := 0.4965279402153859
  const L0: real := -0.01272678366160228

  datatype CorrectError =
    | BadNumber       // `float()` fails on one of the tokens it reaches
    | WrongFieldCount // the unpacking into four names fails

  /** `float(i)` on every token, in order; the first failure wins. */
  function ParseAll(toks: seq<string>, parse: DataFile.RealParser): (r: Result<seq<real>, CorrectError>)
    ensures r.Success? <==> forall k :: 0 <= k < |toks| ==> parse(toks[k]).Some?
    ensures r.Success? ==> |r.value| == |toks| && forall k :: 0 <= k < |toks| ==> r.value[k] == parse(toks[k]).value
    ensures r.Failure? ==> r.error == BadNumber
  {
    if |toks| == 0 then Success([])
    else
      var v :- parse(toks[0]).ToResult(BadNumber);
      var rest := ParseAll(toks[1..], parse);
      if rest.Failure? then
        assert forall k :: 1 <= k < |toks| ==> toks[1..][k - 1] == toks[k];
        Failure(BadNumber)
      else
        Success([v] + rest.value)
  }

  /** `x, y, xu, yu = (float(i) for i in toks)`. Unpacking draws from the
      generator until it has four values and then once more to see it is
      exhausted, so a bad number among the first five tokens is reported
      before a wrong count. */
  function Unpack(toks: seq<string>, parse: DataFile.RealParser): (r: Result<DataFile.Point, CorrectError>)
    ensures r.Success? <==> |toks| == 4 && forall k :: 0 <= k < 4 ==> parse(toks[k]).Some?
    ensures r.Success? ==> r.value == DataFile.Point(parse(toks[0]).value, parse(toks[1]).value,
                                                     parse(toks[2]).value, parse(toks[3]).value)
    ensures r == Failure(WrongFieldCount) <==>
              |toks| != 4 && forall k :: 0 <= k < |toks| && k < 5 ==> parse(toks[k]).Some?
  {
    var drawn := if |toks| < 5 then toks else toks[..5];
    var vals :- ParseAll(drawn, parse);
    if |toks| != 4 then Failure(WrongFieldCount)
    else Success(DataFile.Point(vals[0], vals[1], vals[2], vals[3]))
  }

  /** One line, split on whitespace. */
  function ReadLine(line: string, parse: DataFile.RealParser): Result<DataFile.Point, CorrectError> {
    Unpack(Tokens(line), parse)
  }

  /** A blank line has no tokens and stops the script. */
  lemma BlankLineFails(parse: DataFile.RealParser)
    ensures ReadLine("", parse) == Failure(WrongFieldCount)
  {
  }

  /** Every line of the file, in order; the first bad line ends the run. */
  function ReadLines(lines: seq<string>, parse: DataFile.RealParser): (r: Result<seq<DataFile.Point>, CorrectError>)
    ensures r.Success? <==> forall k :: 0 <= k < |lines| ==> ReadLine(lines[k], parse).Success?
    ensures r.Success? ==> |r.value| == |lines|
    ensures r.Success? ==> forall k :: 0 <= k < |lines| ==> r.value[k] == ReadLine(lines[k], parse).value
  {
    if |lines| == 0 then Success([])
    else
      var p :- ReadLine(lines[0], parse);
      var rest := ReadLines(lines[1..], parse);
      if rest.Failure? then
        assert forall k :: 1 <= k < |lines| ==> lines[1..][k - 1] == lines[k];
        Failure(rest.error)
      else
        Success([p] + rest.value)
  }

  /** The extension (m) of the spring under a mass of `x` grams. */
  function Stretch(x: real): (e: real)
    ensures e * SpringK * 1000.0 == x * G
  {
    (x / 1000.0 * G) / SpringK
  }

  /** The period the length law predicts at length `l`. */
  function Predicted(l: real, pow: LengthFit.Power): real {
    LengthFit.FitFunc(l, K, N, L0, pow)
  }

  /** The predicted lengthening of the period under a mass of `x` grams. */
  function Correction(x: real, pow: LengthFit.Power): (c: real)
    ensures c + Predicted(Length, pow) == Predicted(Length + Stretch(x), pow)
    ensures x == 0.0 ==> c == 0.0
  {
    Predicted(Length + Stretch(x), pow) - Predicted(Length, pow)
  }

  /** A non-negative mass only lengthens the string, and the base of the
      power in the length law stays positive. */
  lemma StretchedBasePositive(x: real)
    requires x >= 0.0
    ensures Stretch(x) >= 0.0
    ensures L0 + Length + Stretch(x) > 0.0
  {
  }

  /** `main`: one output row per input line, `x` and both uncertainties as
      read, the period less the correction for the mass `x`. */
  function Correct(lines: seq<string>, parse: DataFile.RealParser, pow: LengthFit.Power)
    : (r: Result<seq<DataFile.Point>, CorrectError>)
    ensures r.Success? <==> ReadLines(lines, parse).Success?
    ensures r.Failure? ==> r == Failure(ReadLines(lines, parse).error)
    ensures r.Success? ==>
              var points := ReadLines(lines, parse).value;
              && |r.value| == |lines|
              && forall k :: 0 <= k < |lines| ==>
                   && r.value[k].x == points[k].x && r.value[k].xu == points[k].xu && r.value[k].yu == points[k].yu
                   && r.value[k].y + Correction(points[k].x, pow) == points[k].y
  {
    var points :- ReadLines(lines, parse);
    Success(DataFile.Residuals(points, x => Correction(x, pow)))
  }

  /** The correction loses nothing: adding it back restores the measured
      periods. */
  lemma CorrectionRoundTrip(lines: seq<string>, parse: DataFile.RealParser, pow: LengthFit.Power)
    requires ReadLines(lines, parse).Success?
    ensures DataFile.AddFit(Correct(lines, parse, pow).value, x => Correction(x, pow)) == ReadLines(lines, parse).value
  {
    DataFile.ResidualsRoundTrip(ReadLines(lines, parse).value, x => Correction(x, pow));
  }

  /** Rows measured with no added mass come out unchanged. */
  lemma NoMassNoChange(lines: seq<string>, parse: DataFile.RealParser, pow: LengthFit.Power, k: nat)
    requires Correct(lines, parse, pow).Success? && k < |lines|
    requires ReadLines(lines, parse).value[k].x == 0.0
    ensures Correct(lines, parse, pow).value[k] == ReadLines(lines, parse).value[k]
  {
  }
}

=== FILE: datafile.dfy ===
/** The whitespace-separated data files the fitting scripts read:
    `x y [x_uncertainty y_uncertainty]` per line, blank and `#` lines ignored,
    no header. This is the `load_data` shared verbatim by the amplitude fit
    and the length fit, and the residual lines both of them write. */
module DataFile {
  import opened Wrappers
  import opened Text

  datatype LoadError = BadNumber | MissingColumn

  /** Python's `float()` on one token: a partial map from text to a number.
      The decimal grammar itself is not modelled. */
  type RealParser = string -> Option<real>

  /** One row of a data file with its two uncertainty columns. */
  datatype Point = Point(x: real, y: real, xu: real, yu: real)

  /** `float(pcs[0])` and `float(pcs[1])`, in that order. */
  function ParseXY(f: seq<string>, parse: RealParser): (r: Result<(real, real), LoadError>)
    ensures r.Success? <==> |f| >= 2 && parse(f[0]).Some? && parse(f[1]).Some?
    ensures r.Success? ==> r.value == (parse(f[0]).value, parse(f[1]).value)
    ensures |f| >= 1 && parse(f[0]).None? ==> r == Failure(BadNumber)
    ensures |f| == 1 && parse(f[0]).Some? ==> r == Failure(MissingColumn)
  {
    if |f| == 0 then Failure(MissingColumn)
    else
      var x :- parse(f[0]).ToResult(BadNumber);
      if |f| < 2 then Failure(MissingColumn)
      else
        var y :- parse(f[1]).ToResult(BadNumber);
        Success((x, y))
  }

  /** `float(pcs[i]) if len(pcs) > i else 0`. */
  function OptionalColumn(f: seq<string>, i: nat, parse: RealParser): (r: Result<real, LoadError>)
    ensures i >= |f| ==> r == Success(0.0)
    ensures i < |f| ==> (r.Success? <==> parse(f[i]).Some?)
    ensures i < |f| && r.Success? ==> r.value == parse(f[i]).value
  {
    if i < |f| then parse(f[i]).ToResult(BadNumber) else Success(0.0)
  }

  /** One line read with `uncert=True`. */
  function ParsePoint(f: seq<string>, parse: RealParser): (r: Result<Point, LoadError>)
    ensures r.Success? <==> ParseXY(f, parse).Success? && (|f| > 2 ==> parse(f[2]).Some?) && (|f| > 3 ==> parse(f[3]).Some?)
    ensures r.Success? ==> r.value.x == parse(f[0]).value && r.value.y == parse(f[1]).value
    ensures r.Success? ==> r.value.xu == (if |f| > 2 then parse(f[2]).value else 0.0)
    ensures r.Success? ==> r.value.yu == (if |f| > 3 then parse(f[3]).value else 0.0)
  {
    var xy :- ParseXY(f, parse);
    var xu :- OptionalColumn(f, 2, parse);
    var yu :- OptionalColumn(f, 3, parse);
    Success(Point(xy.0, xy.1, xu, yu))
  }

  /** One kept line as `load_data` reads it. With `uncert` unset only the
      first two columns are parsed (the uncertainty fields stay 0 and are
      not part of the result the script sees). */
  function ParseRow(f: seq<string>, parse: RealParser, uncert: bool): (r: Result<Point, LoadError>)
    ensures !uncert ==> (r.Success? <==> ParseXY(f, parse).Success?)
    ensures !uncert && r.Success? ==> r.value == Point(parse(f[0]).value, parse(f[1]).value, 0.0, 0.0)
    ensures uncert ==> r == ParsePoint(f, parse)
  {
    if uncert then ParsePoint(f, parse)
    else
      var xy :- ParseXY(f, parse);
      Success(Point(xy.0, xy.1, 0.0, 0.0))
  }

  /** Reads every row in order; the first row that fails decides the error,
      as the first exception in the Python loop does. */
  function ParseRows(rows: seq<seq<string>>, parse: RealParser, uncert: bool): (r: Result<seq<Point>, LoadError>)
    ensures r.Success? <==> forall k :: 0 <= k < |rows| ==> ParseRow(rows[k], parse, uncert).Success?
    ensures r.Success? ==> |r.value| == |rows|
    ensures r.Success? ==> forall k :: 0 <= k < |rows| ==> r.value[k] == ParseRow(rows[k], parse, uncert).value
    ensures r.Failure? ==> exists k :: 0 <= k < |rows| && ParseRow(rows[k], parse, uncert).Failure?
                                       && r.error == ParseRow(rows[k], parse, uncert).error
                                       && forall j :: 0 <= j < k ==> ParseRow(rows[j], parse, uncert).Success?
  {
    if |rows| == 0 then Success([])
    else
      match ParseRow(rows[0], parse, uncert)
      case Failure(e) => Failure(e)
      case Success(v) =>
        var rest := ParseRows(rows[1..], parse, uncert);
        if rest.Failure? then
          assert forall k :: 1 <= k < |rows| ==> rows[1..][k - 1] == rows[k];
          Failure(rest.error)
        else
          Success([v] + rest.value)
  }

  /** `load_data(file, uncert)`: one point per kept line, in file order, time
      not shifted; with `uncert`, absent uncertainty columns read as 0. */
  function Load(lines: seq<string>, parse: RealParser, uncert: bool): (r: Result<seq<Point>, LoadError>)
    ensures r.Success? ==> forall k :: 0 <= k < |KeptFields(lines)| ==> ParseRow(KeptFields(lines)[k], parse, uncert).Success?
    ensures (forall k :: 0 <= k < |KeptFields(lines)| ==> ParseRow(KeptFields(lines)[k], parse, uncert).Success?) ==> r.Success?
    ensures r.Success? ==> |r.value| == |KeptFields(lines)|
    ensures r.Success? ==> forall k :: 0 <= k < |r.value| ==>
              var f := KeptFields(lines)[k];
              && r.value[k].x == parse(f[0]).value && r.value[k].y == parse(f[1]).value
              && r.value[k].xu == (if uncert && |f| > 2 then parse(f[2]).value else 0.0)
              && r.value[k].yu == (if uncert && |f| > 3 then parse(f[3]).value else 0.0)
  {
    ParseRows(KeptFields(lines), parse, uncert)
  }

  /** The x column. */
  function Xs(points: seq<Point>): (r: seq<real>)
    ensures |r| == |points| && forall k :: 0 <= k < |points| ==> r[k] == points[k].x
  {
    seq(|points|, k requires 0 <= k < |points| => points[k].x)
  }

  /** The y column. */
  function Ys(points: seq<Point>): (r: seq<real>)
    ensures |r| == |points| && forall k :: 0 <= k < |points| ==> r[k] == points[k].y
  {
    seq(|points|, k requires 0 <= k < |points| => points[k].y)
  }

  /** The residual rows `x, y - fit(x), xu, yu`: only the y column changes. */
  function Residuals(points: seq<Point>, fit: real -> real): (r: seq<Point>)
    ensures |r| == |points|
    ensures forall k :: 0 <= k < |points| ==>
              r[k].x == points[k].x && r[k].xu == points[k].xu && r[k].yu == points[k].yu
    ensures forall k :: 0 <= k < |points| ==> r[k].y == points[k].y - fit(points[k].x)
  {
    if |points| == 0 then []
    else
      var p := points[0];
      [Point(p.x, p.y - fit(p.x), p.xu, p.yu)] + Residuals(points[1..], fit)
  }

  /** Adds the fitted value back onto the y column. */
  function AddFit(points: seq<Point>, fit: real -> real): seq<Point> {
    if |points| == 0 then []
    else
      var p := points[0];
      [Point(p.x, p.y + fit(p.x), p.xu, p.yu)] + AddFit(points[1..], fit)
  }

  /** Residuals lose nothing: adding the fit back restores the data. */
  lemma {:induction false} ResidualsRoundTrip(points: seq<Point>, fit: real -> real)
    ensures AddFit(Residuals(points, fit), fit) == points
  {
    if |points| > 0 {
      ResidualsRoundTrip(points[1..], fit);
      assert Residuals(points, fit)[1..] == Residuals(points[1..], fit);
    }
  }
}

=== FILE: decay_fit.dfy ===
/** The decay fit's input side and its Q factor: command-line arguments
    choose the file, the angle unit, the time unit and the frame rate; each
    kept line becomes a time (in seconds, from the first line on) and an
    angle (in radians). From the fitted decay time and period, Q is
    `pi * tau / T` with a conservative relative uncertainty. */
module DecayFit {
  import opened Wrappers
  import opened Text
  import opened Stats
  import DataFile
  import ProcessData

  datatype AngleFormat = Rad | Deg
  datatype TimeFormat = Sec | Frames

  /** The settings `load_data` reads from `sys.argv`. */
  datatype Config = Config(filename: string, angles: AngleFormat, times: TimeFormat, fps: int)

  datatype DecayError =
    | BadAngleFormat  // `angle_format` not `rad` or `deg`
    | BadTimeFormat   // `time_format` not `sec` or `frames`
    | BadFps          // `int(args[4])` fails
    | TooFewFields    // a kept line with fewer than 2 tokens
    | BadNumber       // `float()` fails on a time or an angle
    | ZeroFps         // `time /= fps` with `fps = 0`

  /** The default frame rate. */
  const DefaultFps: int := 30

  /** `args[i] if len(args) > i else default`. */
  function ArgOr(args: seq<string>, i: nat, default: string): (r: string)
    ensures i < |args| ==> r == args[i]
    ensures i >= |args| ==> r == default
  {
    if i < |args| then args[i] else default
  }

  /** The argument checks, in the order the script makes them. `args[0]`
      is the program name. */
  function ParseArgs(args: seq<string>, parseInt: string -> Option<int>): (r: Result<Config, DecayError>)
    ensures r.Success? <==>
              && ArgOr(args, 2, "rad") in {"rad", "deg"}
              && ArgOr(args, 3, "sec") in {"sec", "frames"}
              && (|args| > 4 ==> parseInt(args[4]).Some?)
    ensures ArgOr(args, 2, "rad") !in {"rad", "deg"} ==> r == Failure(BadAngleFormat)
    ensures ArgOr(args, 2, "rad") in {"rad", "deg"} && ArgOr(args, 3, "sec") !in {"sec", "frames"} ==>
              r == Failure(BadTimeFormat)
    ensures ArgOr(args, 2, "rad") in {"rad", "deg"} && ArgOr(args, 3, "sec") in {"sec", "frames"} ==>
              (|args| > 4 && parseInt(args[4]).None? ==> r == Failure(BadFps))
    ensures r.Success? ==>
              && r.value.filename == ArgOr(args, 1, "data.txt")
              && (r.value.angles == Deg <==> ArgOr(args, 2, "rad") == "deg")
              && (r.value.times == Frames <==> ArgOr(args, 3, "sec") == "frames")
              && r.value.fps == if |args| > 4 then parseInt(args[4]).value else DefaultFps
  {
    var filename := ArgOr(args, 1, "data.txt");
    var angleFormat := ArgOr(args, 2, "rad");
    if angleFormat != "rad" && angleFormat != "deg" then Failure(BadAngleFormat)
    else
      var timeFormat := ArgOr(args, 3, "sec");
      if timeFormat != "sec" && timeFormat != "frames" then Failure(BadTimeFormat)
      else
        var fps :- if |args| > 4 then parseInt(args[4]).ToResult(BadFps) else Success(DefaultFps);
        Success(Config(filename, if angleFormat == "deg" then Deg else Rad,
                       if timeFormat == "frames" then Frames else Sec, fps))
  }

  /** With no arguments the script reads `data.txt` in radians and seconds
      at 30 frames per second. */
  lemma Defaults(parseInt: string -> Option<int>)
    ensures ParseArgs(["fit.py"], parseInt) == Success(Config("data.txt", Rad, Sec, 30))
  {
  }

  /** `math.radians`. */
  function Radians(degrees: real, pi: real): real {
    degrees * pi / 180.0
  }

  /** One kept line before the time shift: the time in seconds and the
      angle in radians. */
  function Sample(f: seq<string>, cfg: Config, parse: DataFile.RealParser, pi: real): (r: Result<(real, real), DecayError>)
    ensures |f| < 2 ==> r == Failure(TooFewFields)
    ensures r.Success? <==>
              && |f| >= 2 && parse(f[0]).Some? && parse(f[1]).Some?
              && (cfg.times == Frames ==> cfg.fps != 0)
    ensures r.Success? ==>
              && r.value.0 == (if cfg.times == Frames then parse(f[0]).value / cfg.fps as real else parse(f[0]).value)
              && r.value.1 == (if cfg.angles == Deg then Radians(parse(f[1]).value, pi) else parse(f[1]).value)
  {
    if |f| < 2 then Failure(TooFewFields)
    else
      var time :- parse(f[0]).ToResult(BadNumber);
      var time' :- if cfg.times == Frames then
                     (if cfg.fps == 0 then Failure(ZeroFps) else Success(time / cfg.fps as real))
                   else Success(time);
      var angle :- parse(f[1]).ToResult(BadNumber);
      Success((time', if cfg.angles == Deg then Radians(angle, pi) else angle))
  }

  /** Every kept line in order; the first that fails ends the load. */
  function Samples(rows: seq<seq<string>>, cfg: Config, parse: DataFile.RealParser, pi: real): (r: Result<seq<(real, real)>, DecayError>)
    ensures r.Success? <==> forall k :: 0 <= k < |rows| ==> Sample(rows[k], cfg, parse, pi).Success?
    ensures r.Success? ==> |r.value| == |rows|
    ensures r.Success? ==> forall k :: 0 <= k < |rows| ==> r.value[k] == Sample(rows[k], cfg, parse, pi).value
  {
    if |rows| == 0 then Success([])
    else
      var s :- Sample(rows[0], cfg, parse, pi);
      var rest := Samples(rows[1..], cfg, parse, pi);
      if rest.Failure? then
        assert forall k :: 1 <= k < |rows| ==> rows[1..][k - 1] == rows[k];
        Failure(rest.error)
      else
        Success([s] + rest.value)
  }

  /** `load_data(sys.argv)` on the lines of the chosen file: times from the
      first kept line on, angles converted; one entry per kept line. */
  function LoadDecay(args: seq<string>, lines: seq<string>, parse: DataFile.RealParser,
                     parseInt: string -> Option<int>, pi: real): (r: Result<(seq<real>, seq<real>), DecayError>)
    ensures ParseArgs(args, parseInt).Failure? ==> r == Failure(ParseArgs(args, parseInt).error)
    ensures r.Success? <==>
              && ParseArgs(args, parseInt).Success?
              && Samples(KeptFields(lines), ParseArgs(args, parseInt).value, parse, pi).Success?
    ensures r.Success? ==>
              var cfg := ParseArgs(args, parseInt).value;
              var rows := KeptFields(lines);
              && ParseArgs(args, parseInt).Success?
              && Samples(rows, cfg, parse, pi).Success?
              && |r.value.0| == |r.value.1| == |rows|
              && (|rows| > 0 ==> r.value.0[0] == 0.0)
              && (forall i, j :: 0 <= i < |rows| && 0 <= j < |rows| ==>
                    r.value.0[j] - r.value.0[i] == Sample(rows[j], cfg, parse, pi).value.0 - Sample(rows[i], cfg, parse, pi).value.0)
              && (forall k :: 0 <= k < |rows| ==> r.value.1[k] == Sample(rows[k], cfg, parse, pi).value.1)
  {
    var cfg :- ParseArgs(args, parseInt);
    var samples :- Samples(KeptFields(lines), cfg, parse, pi);
    Success((ProcessData.ShiftToStart(ProcessData.SampleTimes(samples)), ProcessData.SampleAngles(samples)))
  }

  /** A file with a kept line of one token aborts the load, wherever it is,
      unless an earlier line has already failed. */
  lemma {:induction false} ShortLineFails(rows: seq<seq<string>>, cfg: Config, parse: DataFile.RealParser, pi: real, k: nat)
    requires k < |rows| && |rows[k]| < 2
    ensures Samples(rows, cfg, parse, pi).Failure?
  {
    assert Sample(rows[k], cfg, parse, pi).Failure?;
  }

  // ---------------------------------------------------------------------
  // Q factor
  // ---------------------------------------------------------------------

  /** `num / den`, kept whole so the products below stay linear in it. */
  function Ratio(num: real, den: real): (r: real)
    requires den != 0.0
    ensures r * den == num
    ensures den > 0.0 && num >= 0.0 ==> r >= 0.0
  {
    num / den
  }

  /** `abs(q * e)`: a relative error `e` carried to the value `q`. */
  function Scaled(q: real, e: real): (r: real)
    ensures r >= 0.0
    ensures r == q * e || r == -(q * e)
  {
    Abs(q * e)
  }

  /** `Q = pi * tau / T` and `u_Q = |Q * max(sd_tau / tau, sd_T / T)|`:
      Q's uncertainty takes the larger of the two relative errors. For
      positive fitted values and deviations that is the larger of the two
      propagated uncertainties. */
  function QualityFactor(tau: real, period: real, sdTau: real, sdPeriod: real, pi: real): (r: (real, real))
    requires tau != 0.0 && period != 0.0
    ensures r.0 * period == pi * tau
    ensures r.1 >= 0.0
    ensures r.1 == Scaled(r.0, Ratio(sdTau, tau)) || r.1 == Scaled(r.0, Ratio(sdPeriod, period))
    ensures tau > 0.0 && period > 0.0 && sdTau >= 0.0 && sdPeriod >= 0.0 ==>
              r.1 >= Scaled(r.0, Ratio(sdTau, tau)) && r.1 >= Scaled(r.0, Ratio(sdPeriod, period))
  {
    var q := Ratio(pi * tau, period);
    var a := Ratio(sdTau, tau);
    var b := Ratio(sdPeriod, period);
    var uq := Max(a, b);
    if tau > 0.0 && period > 0.0 && sdTau >= 0.0 && sdPeriod >= 0.0 then
      ScaleMonotone(q, a, uq);
      ScaleMonotone(q, b, uq);
      (q, Scaled(q, uq))
    else
      (q, Scaled(q, uq))
  }

  /** Scaling by `q` keeps a non-negative relative error below a larger one
      in magnitude. */
  lemma ScaleMonotone(q: real, a: real, b: real)
    requires 0.0 <= a <= b
    ensures Scaled(q, a) <= Scaled(q, b)
  {
    if q >= 0.0 {
      assert q * a <= q * b;
    } else {
      assert q * b <= q * a <= 0.0;
    }
  }

  /** With a negative relative error (a negative fitted decay time) the
      formula can report less than the other propagated uncertainty. */
  lemma NegativeTauUnderstates()
    ensures var r := QualityFactor(-1.0, 1.0, 5.0, 1.0, 1.0);
            r.1 < Scaled(r.0, Ratio(5.0, -1.0))
  {
  }
}

=== FILE: find_q.dfy ===
/** The Q factor from the decay of a free oscillation: after a sanity check
    on the spacing of the maxima, the first maximum or minimum whose
    amplitude has fallen to `mag` is found, and the number of oscillations
    up to it, times `Q_DIVISOR`, is Q. */
module FindQ {
  import opened Wrappers
  import opened Stats
  import opened ProcessData

  /** `Q_DIVISOR`: the amplitude threshold is `e^(-pi/3)` of the first
      amplitude, reached after Q/3 oscillations. */
  const QDivisor: real := 3.0

  /** The smallest time two true maxima can be apart. */
  const MinSpacing: real := 0.5

  datatype QError =
    | EmptyData    // `y_data[0]` on an empty series
    | NoMaxima     // `next(it)` on an empty list of maxima
    | InvalidPeak  // two consecutive maxima closer than `MinSpacing`
    | NoPeak       // no scanned extremum has decayed to `mag`

  /** The extremum the scan stops at: its position `index` in the maxima and
      minima lists, its kind, the oscillation count and its sample. */
  datatype Found = Found(index: nat, kind: Kind, osc: real, time: real, angle: real)

  /** `mag - abs(angle)`: non-negative once the amplitude has decayed to `mag`. */
  function Diff(mag: real, angle: real): (d: real)
    ensures d >= 0.0 <==> Abs(angle) <= mag
  {
    mag - Abs(angle)
  }

  // ---------------------------------------------------------------------
  // The spacing guard
  // ---------------------------------------------------------------------

  /** Consecutive maxima `k` and `k + 1` are at least `MinSpacing` apart. */
  predicate SpacedAt(x: seq<real>, maxima: seq<nat>, k: nat)
    requires InRange(maxima, |x|) && k + 1 < |maxima|
  {
    x[maxima[k + 1]] - x[maxima[k]] >= MinSpacing
  }

  /** The loop over `zip(maxima, it)`: true when no two consecutive maxima
      are closer than `MinSpacing`. */
  method CheckSpacing(x: seq<real>, maxima: seq<nat>) returns (ok: bool)
    requires InRange(maxima, |x|)
    ensures ok <==> forall k :: 0 <= k < |maxima| - 1 ==> SpacedAt(x, maxima, k)
  {
    var k := 0;
    while k + 1 < |maxima|
      invariant k <= |maxima|
      invariant forall j :: 0 <= j < k && j + 1 < |maxima| ==> SpacedAt(x, maxima, j)
    {
      if x[maxima[k + 1]] - x[maxima[k]] < MinSpacing {
        assert !SpacedAt(x, maxima, k);
        return false;
      }
      k := k + 1;
    }
    return true;
  }

  // ---------------------------------------------------------------------
  // The scan
  // ---------------------------------------------------------------------

  /** At position `i`, the maximum or the minimum has decayed to `mag`. */
  predicate Qualifies(y: seq<real>, maxima: seq<nat>, minima: seq<nat>, mag: real, i: nat)
    requires InRange(maxima, |y|) && InRange(minima, |y|) && i < |maxima| && i < |minima|
  {
    Diff(mag, y[maxima[i]]) >= 0.0 || Diff(mag, y[minima[i]]) >= 0.0
  }

  /** The oscillations up to the `i`-th extremum of `kind`: a whole `i + 1`
      when it has the sign of the first sample, otherwise half a cycle is
      missing. */
  function Osc(i: nat, kind: Kind, y0: real): (osc: real)
    ensures osc == i as real + 1.0 || osc == i as real + 0.5
    ensures osc == i as real + 1.0 <==> (kind == Maximum && y0 > 0.0) || (kind == Minimum && y0 < 0.0)
  {
    match kind
    case Maximum => if y0 > 0.0 then i as real + 1.0 else i as real + 0.5
    case Minimum => if y0 < 0.0 then i as real + 1.0 else i as real + 0.5
  }

  /** A first sample of exactly zero always counts half a cycle. */
  lemma ZeroStartIsHalf(i: nat, kind: Kind)
    ensures Osc(i, kind, 0.0) == i as real + 0.5
  {
  }

  /** The choice at a qualifying position: the maximum when only it has
      decayed to `mag`, or when both have and it is strictly closer to
      `mag` (the larger of the two amplitudes); otherwise the minimum. */
  function Choose(x: seq<real>, y: seq<real>, maxima: seq<nat>, minima: seq<nat>, mag: real, i: nat): (f: Found)
    requires |x| == |y| && |y| > 0 && InRange(maxima, |y|) && InRange(minima, |y|)
    requires i < |maxima| && i < |minima| && Qualifies(y, maxima, minima, mag, i)
    ensures var maxDiff := Diff(mag, y[maxima[i]]);
            var minDiff := Diff(mag, y[minima[i]]);
            f.kind == Maximum <==> maxDiff >= 0.0 && (minDiff < 0.0 || maxDiff < minDiff)
    ensures f.index == i && f.osc == Osc(i, f.kind, y[0])
    ensures f.kind == Maximum ==> f.time == x[maxima[i]] && f.angle == y[maxima[i]]
    ensures f.kind == Minimum ==> f.time == x[minima[i]] && f.angle == y[minima[i]]
    ensures Abs(f.angle) <= mag
  {
    var maxDiff := Diff(mag, y[maxima[i]]);
    var minDiff := Diff(mag, y[minima[i]]);
    var kind := if maxDiff >= 0.0 && (minDiff < 0.0 || maxDiff < minDiff) then Maximum else Minimum;
    var p := if kind == Maximum then maxima[i] else minima[i];
    Found(i, kind, Osc(i, kind, y[0]), x[p], y[p])
  }

  /** When both extrema have decayed by the same amount, the minimum wins. */
  lemma TieChoosesMinimum(x: seq<real>, y: seq<real>, maxima: seq<nat>, minima: seq<nat>, mag: real, i: nat)
    requires |x| == |y| && |y| > 0 && InRange(maxima, |y|) && InRange(minima, |y|)
    requires i < |maxima| && i < |minima|
    requires Abs(y[maxima[i]]) <= mag && Abs(y[maxima[i]]) == Abs(y[minima[i]])
    ensures Choose(x, y, maxima, minima, mag, i).kind == Minimum
  {
  }

  /** The `for i in range(min(len(minima), len(maxima)))` loop: the first
      position that qualifies, if any. */
  method Scan(y: seq<real>, maxima: seq<nat>, minima: seq<nat>, mag: real) returns (r: Option<nat>)
    requires InRange(maxima, |y|) && InRange(minima, |y|)
    ensures r.Some? ==> r.value < |maxima| && r.value < |minima| && Qualifies(y, maxima, minima, mag, r.value)
    ensures r.Some? ==> forall k :: 0 <= k < r.value ==> !Qualifies(y, maxima, minima, mag, k)
    ensures r.None? <==> forall k :: 0 <= k < |maxima| && k < |minima| ==> !Qualifies(y, maxima, minima, mag, k)
  {
    var n := if |minima| < |maxima| then |minima| else |maxima|;
    var i := 0;
    while i < n
      invariant i <= n
      invariant forall k :: 0 <= k < i ==> !Qualifies(y, maxima, minima, mag, k)
    {
      var maxDiff := mag - Abs(y[maxima[i]]);
      var minDiff := mag - Abs(y[minima[i]]);
      if maxDiff >= 0.0 || minDiff >= 0.0 {
        assert Qualifies(y, maxima, minima, mag, i);
        return Some(i);
      }
      i := i + 1;
    }
    return None;
  }

  /** `osc * Q_DIVISOR`: a whole number of half oscillations, each worth 1.5. */
  function QOf(f: Found): (q: real)
    requires f.osc == f.index as real + 1.0 || f.osc == f.index as real + 0.5
    ensures q >= 1.5
    ensures q == 3.0 * f.index as real + 3.0 || q == 3.0 * f.index as real + 1.5
  {
    f.osc * QDivisor
  }

  // ---------------------------------------------------------------------
  // The script
  // ---------------------------------------------------------------------

  /** `main` on loaded data: `mag` (which needs `exp` and `pi`) is given;
      the maxima and minima come from the peak finder on `y` and `-y`. The
      result is the chosen extremum and Q. */
  method FindQ(x: seq<real>, y: seq<real>, findPeaks: PeakFinder, mag: real) returns (r: Result<(Found, real), QError>)
    requires |x| == |y| && ValidFinder(findPeaks)
    ensures |y| == 0 <==> r == Failure(EmptyData)
    ensures |y| > 0 ==>
              var maxima := findPeaks(y);
              var minima := findPeaks(Neg(y));
              && (|maxima| == 0 <==> r == Failure(NoMaxima))
              && (|maxima| > 0 ==>
                    (r == Failure(InvalidPeak) <==> exists k :: 0 <= k < |maxima| - 1 && !SpacedAt(x, maxima, k)))
              && (r == Failure(NoPeak) <==>
                    && |maxima| > 0
                    && (forall k :: 0 <= k < |maxima| - 1 ==> SpacedAt(x, maxima, k))
                    && (forall k :: 0 <= k < |maxima| && k < |minima| ==> !Qualifies(y, maxima, minima, mag, k)))
              && (r.Success? ==>
                    var i := r.value.0.index;
                    && i < |maxima| && i < |minima|
                    && (forall k :: 0 <= k < |maxima| - 1 ==> SpacedAt(x, maxima, k))
                    && Qualifies(y, maxima, minima, mag, i)
                    && (forall k :: 0 <= k < i ==> !Qualifies(y, maxima, minima, mag, k))
                    && r.value.0 == Choose(x, y, maxima, minima, mag, i)
                    && r.value.1 == QOf(r.value.0))
  {
    if |y| == 0 {
      return Failure(EmptyData);
    }
    var maxima := findPeaks(y);
    var minima := findPeaks(Neg(y));
    assert InRange(minima, |y|);
    if |maxima| == 0 {
      return Failure(NoMaxima);
    }
    var ok := CheckSpacing(x, maxima);
    if !ok {
      return Failure(InvalidPeak);
    }
    var i := Scan(y, maxima, minima, mag);
    if i.None? {
      return Failure(NoPeak);
    }
    var f := Choose(x, y, maxima, minima, mag, i.value);
    r := Success((f, QOf(f)));
  }
}

=== FILE: gen_uncert.dfy ===
/** Uncertainties for the amplitude data: each point gets an x and a y
    uncertainty, the larger of an absolute and a relative floor, optionally
    widened by the other coordinate's relative uncertainty (x first, then
    y with the widened x). */
module GenUncert {
  import opened Wrappers
  import opened Stats
  import opened DataFile

  /** The command-line options. */
  datatype Settings = Settings(xUncert: real, yUncert: real, xRel: real, yRel: real, xDep: bool, yDep: bool)

  datatype UncertError =
    | LoadFailed(cause: LoadError)  // `load_data` raised
    | ZeroY                         // `y_unc / y` with `x_dep` and `y = 0`
    | ZeroX                         // `x_unc / x` with `y_dep` and `x = 0`

  /** `max(absolute, abs(relative * v))`. */
  function Floor(absolute: real, relative: real, v: real): (r: real)
    ensures r >= absolute && r >= Abs(relative * v) && r >= 0.0
    ensures r == absolute || r == Abs(relative * v)
  {
    Max(absolute, Abs(relative * v))
  }

  /** `max(u, abs((other_unc / other) * v))`: widens `u` to the relative
      uncertainty of the other coordinate, applied to this one. */
  function Widen(u: real, otherUnc: real, other: real, v: real): (r: real)
    requires other != 0.0
    ensures r >= u && r >= Abs((otherUnc / other) * v)
    ensures r == u || r == Abs((otherUnc / other) * v)
  {
    Max(u, Abs((otherUnc / other) * v))
  }

  /** `x_unc` and `y_unc` for one point. */
  function PointUncert(x: real, y: real, s: Settings): (r: Result<(real, real), UncertError>)
    ensures r.Failure? <==> (s.xDep && y == 0.0) || (s.yDep && x == 0.0)
    ensures r.Failure? ==> r.error == if s.xDep && y == 0.0 then ZeroY else ZeroX
    ensures r.Success? ==>
              var (xu, yu) := r.value;
              && xu >= 0.0 && yu >= 0.0
              && (!s.xDep ==> xu == Floor(s.xUncert, s.xRel, x))
              && (s.xDep ==> xu == Widen(Floor(s.xUncert, s.xRel, x), Floor(s.yUncert, s.yRel, y), y, x))
              && (!s.yDep ==> yu == Floor(s.yUncert, s.yRel, y))
              && (s.yDep ==> yu == Widen(Floor(s.yUncert, s.yRel, y), xu, x, y))
  {
    var xu0 := Floor(s.xUncert, s.xRel, x);
    var yu0 := Floor(s.yUncert, s.yRel, y);
    if s.xDep && y == 0.0 then Failure(ZeroY)
    else
      var xu := if s.xDep then Widen(xu0, yu0, y, x) else xu0;
      if s.yDep && x == 0.0 then Failure(ZeroX)
      else
        var yu := if s.yDep then Widen(yu0, xu, x, y) else yu0;
        Success((xu, yu))
  }

  /** Widening only ever raises an uncertainty: each is at least its own
      floor, whatever the dependency flags. */
  lemma WideningOnlyRaises(x: real, y: real, s: Settings)
    requires PointUncert(x, y, s).Success?
    ensures PointUncert(x, y, s).value.0 >= Floor(s.xUncert, s.xRel, x)
    ensures PointUncert(x, y, s).value.1 >= Floor(s.yUncert, s.yRel, y)
    ensures !s.xDep && !s.yDep ==>
              PointUncert(x, y, s).value == (Floor(s.xUncert, s.xRel, x), Floor(s.yUncert, s.yRel, y))
  {
  }

  /** The output row of one point: x and y as read, then the uncertainties. */
  function Row(p: Point, s: Settings): (r: Result<Point, UncertError>)
    ensures r.Success? <==> PointUncert(p.x, p.y, s).Success?
    ensures r.Success? ==> r.value.x == p.x && r.value.y == p.y
    ensures r.Success? ==> (r.value.xu, r.value.yu) == PointUncert(p.x, p.y, s).value
  {
    var (xu, yu) :- PointUncert(p.x, p.y, s);
    Success(Point(p.x, p.y, xu, yu))
  }

  /** The loop of `main`: one row per point, in order; the first point whose
      division fails ends the run. */
  method Rows(points: seq<Point>, s: Settings) returns (r: Result<seq<Point>, UncertError>)
    ensures r.Success? <==> forall k :: 0 <= k < |points| ==> Row(points[k], s).Success?
    ensures r.Success? ==> |r.value| == |points|
    ensures r.Success? ==> forall k :: 0 <= k < |points| ==> r.value[k] == Row(points[k], s).value
    ensures r.Failure? ==> exists k :: 0 <= k < |points| && Row(points[k], s).Failure?
                                       && r.error == Row(points[k], s).error
                                       && forall j :: 0 <= j < k ==> Row(points[j], s).Success?
  {
    var out: seq<Point> := [];
    var i := 0;
    while i < |points|
      invariant i <= |points| && |out| == i
      invariant forall k :: 0 <= k < i ==> Row(points[k], s).Success? && out[k] == Row(points[k], s).value
    {
      var row := Row(points[i], s);
      if row.Failure? {
        return Failure(row.error);
      }
      out := out + [row.value];
      i := i + 1;
    }
    return Success(out);
  }

  /** `main`: load `x y` pairs (uncertainty columns ignored) and write
      `x y x_unc y_unc` for each. */
  method GenerateUncertainties(lines: seq<string>, parse: RealParser, s: Settings)
    returns (r: Result<seq<Point>, UncertError>)
    ensures Load(lines, parse, false).Failure? ==> r == Failure(LoadFailed(Load(lines, parse, false).error))
    ensures r.Success? <==>
              && Load(lines, parse, false).Success?
              && forall k :: 0 <= k < |Load(lines, parse, false).value| ==> Row(Load(lines, parse, false).value[k], s).Success?
    ensures r.Success? ==>
              var points := Load(lines, parse, false).value;
              && |r.value| == |points|
              && forall k :: 0 <= k < |points| ==> Row(points[k], s).Success? && r.value[k] == Row(points[k], s).value
  {
    var loaded := Load(lines, parse, false);
    if loaded.Failure? {
      return Failure(LoadFailed(loaded.error));
    }
    r := Rows(loaded.value, s);
  }

  /** Without the dependency flags no division happens, so every loaded
      file produces a full set of rows. */
  lemma IndependentNeverFails(points: seq<Point>, s: Settings)
    requires !s.xDep && !s.yDep
    ensures forall k :: 0 <= k < |points| ==> Row(points[k], s).Success?
  {
  }
}

=== FILE: genperiod.dfy ===
/** Period extraction for the length experiment: a times file names a video
    and, per line, an x value and a clip `start-stop`; each clip's merged
    peaks give one row `x period x_uncertainty period_uncertainty`. The
    `!` directives and the `~` x value form a small state machine. */
module GenPeriod {
  import opened Wrappers
  import opened Text
  import opened Stats
  import DataFile
  import opened ProcessData

  /** Python's `int()` on one token, taken as given. */
  type IntParser = string -> Option<int>

  datatype GenError =
    | VideoNotOpenable(path: string)  // `!v` names a file that cannot be opened
    | NoVideo                         // a data line before any `!v`
    | MissingToken                    // `pcs[1]` on a one-token line
    | BadValue                        // `float(...)` fails on an x value or directive argument
    | BadTimeRange                    // the range does not split into exactly two parts
    | BadTime                         // `parse_time` fails on one end of the range
    | TooFewPeaks                     // fewer than 2 merged peaks in a clip
    | ZeroPeakTime                    // `u / t` with a merged peak at time 0

  // ---------------------------------------------------------------------
  // Clip times
  // ---------------------------------------------------------------------

  /** `parse_time(t, framerate)` as written, in milliseconds: `"<v>s"` is
      seconds, `"<n>f"` is a frame number, anything else is read as
      milliseconds. The `ms` test comes after the `s` test, so its branch
      never runs. */
  function ParseTimeAsWritten(t: string, parse: DataFile.RealParser, parseInt: IntParser, framerate: int): (r: Option<real>)
    requires framerate != 0
    ensures EndsWith(t, "s") ==>
              (r.Some? <==> parse(t[..|t| - 1]).Some?) && (r.Some? ==> r.value == parse(t[..|t| - 1]).value * 1000.0)
    ensures EndsWith(t, "f") ==>
              (r.Some? <==> parseInt(t[..|t| - 1]).Some?)
              && (r.Some? ==> r.value == parseInt(t[..|t| - 1]).value as real / framerate as real * 1000.0)
    ensures !EndsWith(t, "s") && !EndsWith(t, "f") ==> r == parse(t)
  {
    if EndsWith(t, "s") then
      var v :- parse(t[..|t| - 1]);
      Some(v * 1000.0)
    else if EndsWith(t, "f") then
      var n :- parseInt(t[..|t| - 1]);
      Some(n as real / framerate as real * 1000.0)
    else
      var u := if EndsWith(t, "ms") then t[..|t| - 2] else t;
      parse(u)
  }

  /** The frame rate `parse_time` is called with. */
  const FrameRate: int := 30

  /** A token ending in `ms` is taken by the seconds branch: the `m` stays in
      the number, so a parser that rejects a trailing `m` (as `float()` does)
      rejects the whole token. */
  lemma MillisecondsAreSeconds(t: string, parse: DataFile.RealParser, parseInt: IntParser)
    requires EndsWith(t, "ms")
    ensures EndsWith(t, "s")
    ensures ParseTimeAsWritten(t, parse, parseInt, FrameRate)
            == (if parse(t[..|t| - 1]).Some? then Some(parse(t[..|t| - 1]).value * 1000.0) else None)
    ensures (forall u :: EndsWith(u, "m") ==> parse(u).None?) ==> ParseTimeAsWritten(t, parse, parseInt, FrameRate).None?
  {
    assert t[|t| - 1..] == t[|t| - 2..][1..];
    var u := t[..|t| - 1];
    assert u[|u| - 1..] == "m" by {
      assert u[|u| - 1] == t[|t| - 2];
    }
  }

  /** `"250ms"` with a parser that reads only `"250"`: the code as written
      rejects it, the corrected reading gives 250 ms. */
  lemma MillisecondsRejected(parseInt: IntParser)
    ensures var parse: DataFile.RealParser := u => if u == "250" then Some(250.0) else None;
            && ParseTimeAsWritten("250ms", parse, parseInt, FrameRate) == None
            && ParseTime("250ms", parse, parseInt, FrameRate) == Some(250.0)
  {
    var parse: DataFile.RealParser := u => if u == "250" then Some(250.0) else None;
    assert EndsWith("250ms", "s") && "250ms"[..4] == "250m";
    assert EndsWith("250ms", "ms") && "250ms"[..3] == "250";
  }

  /** `parse_time` as evidently intended: the `ms` suffix is tested before
      the `s` suffix, so each of the three units is read by its own
      branch. */
  function ParseTime(t: string, parse: DataFile.RealParser, parseInt: IntParser, framerate: int): (r: Option<real>)
    requires framerate != 0
    ensures EndsWith(t, "ms") ==> r == parse(t[..|t| - 2])
    ensures EndsWith(t, "s") && !EndsWith(t, "ms") ==>
              (r.Some? <==> parse(t[..|t| - 1]).Some?) && (r.Some? ==> r.value == parse(t[..|t| - 1]).value * 1000.0)
    ensures EndsWith(t, "f") ==>
              (r.Some? <==> parseInt(t[..|t| - 1]).Some?)
              && (r.Some? ==> r.value == parseInt(t[..|t| - 1]).value as real / framerate as real * 1000.0)
    ensures !EndsWith(t, "s") && !EndsWith(t, "f") ==> r == parse(t)
  {
    if EndsWith(t, "ms") then
      assert t[|t| - 1..] == t[|t| - 2..][1..];
      parse(t[..|t| - 2])
    else if EndsWith(t, "s") then
      var v :- parse(t[..|t| - 1]);
      Some(v * 1000.0)
    else if EndsWith(t, "f") then
      var n :- parseInt(t[..|t| - 1]);
      Some(n as real / framerate as real * 1000.0)
    else parse(t)
  }

  /** The two readings differ only on `ms` tokens: every other token reads
      the same under the corrected `parse_time` as under the one written. */
  lemma ParseTimeAgrees(t: string, parse: DataFile.RealParser, parseInt: IntParser, framerate: int)
    requires framerate != 0
    ensures !EndsWith(t, "ms") ==>
              ParseTime(t, parse, parseInt, framerate) == ParseTimeAsWritten(t, parse, parseInt, framerate)
  {
  }

  /** The corrected reading agrees across units: a number `v` written with
      `ms`, with `s`, or bare reads as `v` ms, `1000 v` ms and `v` ms. */
  lemma UnitsAgree(v: string, parse: DataFile.RealParser, parseInt: IntParser)
    requires !EndsWith(v, "m") && !EndsWith(v, "s") && !EndsWith(v, "f")
    ensures ParseTime(v + "ms", parse, parseInt, FrameRate) == parse(v)
    ensures ParseTime(v + "s", parse, parseInt, FrameRate) == (if parse(v).Some? then Some(parse(v).value * 1000.0) else None)
    ensures ParseTime(v, parse, parseInt, FrameRate) == parse(v)
  {
    MillisecondsSuffix(v, parse, parseInt);
    SecondsSuffix(v, parse, parseInt);
  }

  /** `v + "ms"` is read by the milliseconds branch, as `v`. */
  lemma MillisecondsSuffix(v: string, parse: DataFile.RealParser, parseInt: IntParser)
    ensures ParseTime(v + "ms", parse, parseInt, FrameRate) == parse(v)
  {
    var ms := v + "ms";
    assert ms[|ms| - 2..] == "ms" && ms[..|ms| - 2] == v;
  }

  /** `v + "s"`, for `v` not ending in `m`, is read by the seconds branch. */
  lemma SecondsSuffix(v: string, parse: DataFile.RealParser, parseInt: IntParser)
    requires !EndsWith(v, "m")
    ensures ParseTime(v + "s", parse, parseInt, FrameRate) == (if parse(v).Some? then Some(parse(v).value * 1000.0) else None)
  {
    var sec := v + "s";
    assert sec[|sec| - 1..] == "s" && sec[..|sec| - 1] == v;
    if |v| > 0 {
      assert sec[|sec| - 2..] == [v[|v| - 1]] + "s";
      assert v[|v| - 1..] == [v[|v| - 1]];
    }
  }

  /** A time range `start-stop` split on `-` into exactly two times. */
  function TimeRange(token: string, parse: DataFile.RealParser, parseInt: IntParser): (r: Result<(real, real), GenError>)
    ensures r.Success? <==>
              var p := SplitOn(token, '-');
              |p| == 2 && ParseTime(p[0], parse, parseInt, FrameRate).Some? && ParseTime(p[1], parse, parseInt, FrameRate).Some?
    ensures r.Success? ==>
              var p := SplitOn(token, '-');
              r.value == (ParseTime(p[0], parse, parseInt, FrameRate).value, ParseTime(p[1], parse, parseInt, FrameRate).value)
    ensures multiset(token)['-'] != 1 ==> r == Failure(BadTimeRange)
  {
    var p := SplitOn(token, '-');
    if |p| != 2 then Failure(BadTimeRange)
    else
      var start :- ParseTime(p[0], parse, parseInt, FrameRate).ToResult(BadTime);
      var stop :- ParseTime(p[1], parse, parseInt, FrameRate).ToResult(BadTime);
      Success((start, stop))
  }

  /** A well-formed range reads back from its two ends: `start-stop`, with
      no `-` inside either end, splits into exactly those ends. */
  lemma TimeRangeOfJoin(start: string, stop: string, parse: DataFile.RealParser, parseInt: IntParser)
    requires '-' !in start && '-' !in stop
    requires ParseTime(start, parse, parseInt, FrameRate).Some? && ParseTime(stop, parse, parseInt, FrameRate).Some?
    ensures TimeRange(start + "-" + stop, parse, parseInt)
            == Success((ParseTime(start, parse, parseInt, FrameRate).value, ParseTime(stop, parse, parseInt, FrameRate).value))
  {
    var token := start + "-" + stop;
    assert IndexOf(token, '-') == |start| by {
      assert token[|start|] == '-';
      assert token[..|start|] == start;
    }
    assert token[..|start|] == start;
    assert token[|start| + 1..] == stop;
    assert SplitOn(stop, '-') == [stop];
    assert SplitOn(token, '-') == [start, stop];
  }

  // ---------------------------------------------------------------------
  // The script state
  // ---------------------------------------------------------------------

  /** The variables `main` keeps across lines: the video in use, the next
      `~` value, its step, and the x transformation. */
  datatype State = State(video: Option<string>, currentX: real, xStep: real, offset: real, negate: bool)

  /** The state before the first line: no video, `current_x = x_step = 0`,
      offset and negation from the command line. */
  function Initial(offset: real, negate: bool): (s: State)
    ensures s.video.None? && s.currentX == 0.0 && s.xStep == 0.0
    ensures s.offset == offset && s.negate == negate
  {
    State(None, 0.0, 0.0, offset, negate)
  }

  /** `float(pcs[1])` for a directive argument. */
  function Argument(args: seq<string>, parse: DataFile.RealParser): (r: Result<real, GenError>)
    ensures |args| == 0 ==> r == Failure(MissingToken)
    ensures |args| > 0 ==> (r.Success? <==> parse(args[0]).Some?)
    ensures r.Success? ==> |args| > 0 && r.value == parse(args[0]).value
  {
    if |args| == 0 then Failure(MissingToken) else parse(args[0]).ToResult(BadValue)
  }

  /** The directives that change the state. */
  const Known: set<string> := {"v", "video", "xval", "xstep", "xoffset", "xnegate"}

  /** One `!name args` line. `v`/`video` opens a video (`canOpen` stands for
      the path resolution and `cv2.VideoCapture`), `xval`, `xstep`,
      `xoffset` and `xnegate` set their variable, anything else (including
      `echo`) leaves the state alone. A known directive needs an argument;
      the numeric ones need it to parse; a video must open. On success the
      named variable takes the argument and every other one is kept. */
  function Directive(s: State, name: string, args: seq<string>, parse: DataFile.RealParser,
                     canOpen: string -> bool): (r: Result<State, GenError>)
    ensures r.Success? <==>
              || name !in Known
              || (|args| > 0 && (name in {"v", "video"} ==> canOpen(args[0]))
                             && (name in {"xval", "xstep", "xoffset"} ==> parse(args[0]).Some?))
    ensures name in Known && |args| == 0 ==> r == Failure(MissingToken)
    ensures name in {"v", "video"} && |args| > 0 && !canOpen(args[0]) ==> r == Failure(VideoNotOpenable(args[0]))
    ensures name in {"xval", "xstep", "xoffset"} && |args| > 0 && parse(args[0]).None? ==> r == Failure(BadValue)
    ensures r.Success? ==>
              var t := r.value;
              && (if name in {"v", "video"} then t.video == Some(args[0]) else t.video == s.video)
              && (if name == "xval" then t.currentX == parse(args[0]).value else t.currentX == s.currentX)
              && (if name == "xstep" then t.xStep == parse(args[0]).value else t.xStep == s.xStep)
              && (if name == "xoffset" then t.offset == parse(args[0]).value else t.offset == s.offset)
              && (if name == "xnegate" then (t.negate <==> Lower(args[0]) != "false") else t.negate == s.negate)
  {
    if name == "v" || name == "video" then
      if |args| == 0 then Failure(MissingToken)
      else if canOpen(args[0]) then Success(s.(video := Some(args[0])))
      else Failure(VideoNotOpenable(args[0]))
    else if name == "xval" then
      var v :- Argument(args, parse);
      Success(s.(currentX := v))
    else if name == "xstep" then
      var v :- Argument(args, parse);
      Success(s.(xStep := v))
    else if name == "xoffset" then
      var v :- Argument(args, parse);
      Success(s.(offset := v))
    else if name == "xnegate" then
      if |args| == 0 then Failure(MissingToken)
      else Success(s.(negate := Lower(args[0]) != "false"))
    else Success(s)
  }

  /** `xnegate` turns negation off exactly for an argument that reads
      `false` in any letter case. */
  lemma XNegateFalse(s: State, arg: string, parse: DataFile.RealParser, canOpen: string -> bool)
    ensures Directive(s, "xnegate", [arg], parse, canOpen) == Success(s.(negate := Lower(arg) != "false"))
    ensures Lower(arg) != "false" ==> Directive(s, "xnegate", [arg], parse, canOpen).value.negate
    ensures !Directive(s, "xnegate", ["FaLsE"], parse, canOpen).value.negate
  {
    assert Lower("FaLsE") == "false";
  }

  /** The x value of a data line, before the offset: `~` takes `current_x`
      and advances it by `x_step`; an explicit number leaves it alone. */
  function NextX(s: State, token: string, parse: DataFile.RealParser): (r: Result<(real, State), GenError>)
    ensures token == "~" ==> r == Success((s.currentX, s.(currentX := s.currentX + s.xStep)))
    ensures token != "~" ==> (r.Success? <==> parse(token).Some?)
    ensures token != "~" && r.Success? ==> r.value == (parse(token).value, s)
  {
    if token == "~" then Success((s.currentX, s.(currentX := s.currentX + s.xStep)))
    else
      var v :- parse(token).ToResult(BadValue);
      Success((v, s))
  }

  /** `x_val -= offset`, then negated when `negate` is set. */
  function Transform(s: State, x: real): (r: real)
    ensures (if s.negate then -r else r) + s.offset == x
  {
    if s.negate then -(x - s.offset) else x - s.offset
  }

  /** The transformation is undone by adding back the offset after
      undoing the negation, so distinct raw x values stay distinct. */
  lemma TransformInjective(s: State, x: real, y: real)
    ensures Transform(s, x) == Transform(s, y) <==> x == y
  {
  }

  /** A run of `~` lines steps evenly: after `n` of them, `current_x` has
      advanced by `n * x_step`. */
  function StepTimes(s: State, n: nat): (t: State)
    ensures t == s.(currentX := s.currentX + n as real * s.xStep)
  {
    if n == 0 then s else
      var u := StepTimes(s, n - 1);
      u.(currentX := u.currentX + s.xStep)
  }

  lemma {:induction false} TildeSteps(s: State, n: nat, parse: DataFile.RealParser)
    ensures NextX(StepTimes(s, n), "~", parse).Success?
    ensures NextX(StepTimes(s, n), "~", parse).value.0 == s.currentX + n as real * s.xStep
    ensures NextX(StepTimes(s, n), "~", parse).value.1 == StepTimes(s, n + 1)
  {
  }

  // ---------------------------------------------------------------------
  // Period of one clip
  // ---------------------------------------------------------------------

  /** The uncertainty settings from the command line. */
  datatype Uncertainty = Uncertainty(x: real, xRel: real, y: real, yRel: real)

  /** One output row. */
  datatype PeriodRow = PeriodRow(x: real, period: real, xu: real, pu: real)

  /** `u / t` for each merged peak: its spread relative to its time. */
  function RelativeSpreads(peaks: seq<Merged>): (r: seq<real>)
    requires forall k :: 0 <= k < |peaks| ==> peaks[k].time != 0.0
    ensures |r| == |peaks| && forall k :: 0 <= k < |peaks| ==> r[k] == peaks[k].spread / peaks[k].time
  {
    seq(|peaks|, k requires 0 <= k < |peaks| => peaks[k].spread / peaks[k].time)
  }

  /** `max(x_uncert, abs(x_rel_uncert * x_val))`. */
  function XUncertainty(u: Uncertainty, x: real): (r: real)
    ensures r >= u.x && r >= Abs(u.xRel * x) && (r == u.x || r == Abs(u.xRel * x))
  {
    Max(u.x, Abs(u.xRel * x))
  }

  /** The relative floor of the period uncertainty: the period times the
      larger of `y_rel_uncert` and the largest relative spread `largest`,
      made non-negative. */
  function RelativeFloor(period: real, yRel: real, largest: real): (r: real)
    ensures r >= 0.0
    ensures r == period * Max(yRel, largest) || r == -(period * Max(yRel, largest))
  {
    Abs(period * Max(yRel, largest))
  }

  /** The standard error of the gaps, `np.std(periods) / np.sqrt(len(periods))`. */
  function StandardError(gaps: seq<real>, sqrt: Sqrt): real
    requires |gaps| > 0 && PositiveSqrt(sqrt)
  {
    sqrt(Variance(gaps)) / sqrt(|gaps| as real)
  }

  /** The square root of a positive number is positive. */
  ghost predicate PositiveSqrt(sqrt: Sqrt) {
    forall v :: v > 0.0 ==> sqrt(v) > 0.0
  }

  /** Python's `max` of three numbers. */
  function Max3(a: real, b: real, c: real): (r: real)
    ensures r >= a && r >= b && r >= c
    ensures r == a || r == b || r == c
  {
    Max(a, Max(b, c))
  }

  /** The period row of one clip from its merged peaks: the period is the
      mean gap between consecutive peaks, its uncertainty the largest of
      the standard error of the gaps, the absolute floor and the relative
      floor. */
  function Period(peaks: seq<Merged>, x: real, u: Uncertainty, sqrt: Sqrt): (r: Result<PeriodRow, GenError>)
    requires PositiveSqrt(sqrt)
    ensures |peaks| < 2 <==> r == Failure(TooFewPeaks)
    ensures r.Success? <==> |peaks| >= 2 && forall k :: 0 <= k < |peaks| ==> peaks[k].time != 0.0
    ensures r.Success? ==>
              var gaps := Gaps(Times(peaks));
              var floors := [StandardError(gaps, sqrt), u.y,
                             RelativeFloor(r.value.period, u.yRel, MaxOf(RelativeSpreads(peaks)))];
              && r.value.x == x
              && r.value.period == Mean(gaps)
              && r.value.xu == XUncertainty(u, x)
              && r.value.pu >= floors[0] && r.value.pu >= floors[1] && r.value.pu >= floors[2]
              && r.value.pu in floors
  {
    if |peaks| < 2 then Failure(TooFewPeaks)
    else if exists k :: 0 <= k < |peaks| && peaks[k].time == 0.0 then Failure(ZeroPeakTime)
    else
      var gaps := Gaps(Times(peaks));
      var period := Mean(gaps);
      Success(PeriodRow(x, period, XUncertainty(u, x),
                        Max3(StandardError(gaps, sqrt), u.y, RelativeFloor(period, u.yRel, MaxOf(RelativeSpreads(peaks))))))
  }

  /** The mean gap telescopes: the period is the time from the first to the
      last merged peak divided by the number of gaps. */
  lemma PeriodTelescopes(peaks: seq<Merged>, x: real, u: Uncertainty, sqrt: Sqrt)
    requires PositiveSqrt(sqrt)
    requires Period(peaks, x, u, sqrt).Success?
    ensures Period(peaks, x, u, sqrt).value.period
            == (peaks[|peaks| - 1].time - peaks[0].time) / ((|peaks| - 1) as real)
  {
    var t := Times(peaks);
    MeanOfGaps(t);
  }

  /** With merged peaks in increasing time order the period is positive. */
  lemma PeriodPositive(peaks: seq<Merged>, x: real, u: Uncertainty, sqrt: Sqrt)
    requires PositiveSqrt(sqrt)
    requires Period(peaks, x, u, sqrt).Success?
    requires StrictlyIncreasing(Times(peaks))
    ensures Period(peaks, x, u, sqrt).value.period > 0.0
  {
    PeriodTelescopes(peaks, x, u, sqrt);
    var t := Times(peaks);
    assert t[0] < t[|t| - 1];
  }

  // ---------------------------------------------------------------------
  // The whole script
  // ---------------------------------------------------------------------

  /** What `main` takes from its surroundings: number parsers, whether a
      video can be opened, the frames of a clip as `(time, angle)` pairs
      (standing for the video read and the tracker), the raw peak finder of
      `averaged_peaks`, and `sqrt`. */
  datatype Env = Env(parse: DataFile.RealParser, parseInt: IntParser, canOpen: string -> bool,
                     frames: (string, real, real) -> seq<(real, real)>, findPeaks: PeakFinder, sqrt: Sqrt)

  /** The command-line settings. */
  datatype Options = Options(threshold: real, uncertainty: Uncertainty, offset: real, negate: bool)

  /** `averaged_peaks` on the frames of one clip. */
  function ClipPeaks(video: string, start: real, stop: real, env: Env, threshold: real): (r: seq<Merged>)
    requires ValidFinder(env.findPeaks) && PositiveSqrt(env.sqrt)
    ensures var f := env.frames(video, start, stop);
            var p := env.findPeaks(SampleAngles(f));
            r == Clustered(Select(SampleTimes(f), p), Select(SampleAngles(f), p), threshold, env.sqrt)
  {
    var f := env.frames(video, start, stop);
    var p := env.findPeaks(SampleAngles(f));
    Clustered(Select(SampleTimes(f), p), Select(SampleAngles(f), p), threshold, env.sqrt)
  }

  /** One kept line: a directive updates the state; a data line yields a
      row. Errors end the script. */
  function Line(s: State, pcs: seq<string>, env: Env, opts: Options): (r: Result<(State, Option<PeriodRow>), GenError>)
    requires |pcs| >= 1
    requires ValidFinder(env.findPeaks) && PositiveSqrt(env.sqrt)
    ensures StartsWith(pcs[0], "!") ==>
              r == (var t :- Directive(s, pcs[0][1..], pcs[1..], env.parse, env.canOpen); Success((t, None)))
    ensures r.Success? ==> (r.value.1.Some? <==> !StartsWith(pcs[0], "!"))
    ensures r.Success? && r.value.1.Some? ==>
              r.value.1.value.xu >= opts.uncertainty.x && r.value.1.value.pu >= opts.uncertainty.y
    ensures !StartsWith(pcs[0], "!") && s.video.None? ==> r == Failure(NoVideo)
    ensures !StartsWith(pcs[0], "!") && s.video.Some? && NextX(s, pcs[0], env.parse).Success? && |pcs| < 2 ==>
              r == Failure(MissingToken)
    ensures && !StartsWith(pcs[0], "!") && s.video.Some? && NextX(s, pcs[0], env.parse).Success? && |pcs| >= 2
            && TimeRange(pcs[1], env.parse, env.parseInt).Success?
            && Period(ClipPeaks(s.video.value, TimeRange(pcs[1], env.parse, env.parseInt).value.0,
                                TimeRange(pcs[1], env.parse, env.parseInt).value.1, env, opts.threshold),
                      Transform(s, NextX(s, pcs[0], env.parse).value.0), opts.uncertainty, env.sqrt).Success?
            ==> r.Success?
    ensures !StartsWith(pcs[0], "!") && r.Success? ==>
              && s.video.Some? && |pcs| >= 2 && NextX(s, pcs[0], env.parse).Success?
              && TimeRange(pcs[1], env.parse, env.parseInt).Success?
              && var (x, t) := NextX(s, pcs[0], env.parse).value;
                 var (start, stop) := TimeRange(pcs[1], env.parse, env.parseInt).value;
                 var row := Period(ClipPeaks(s.video.value, start, stop, env, opts.threshold),
                                   Transform(s, x), opts.uncertainty, env.sqrt);
                 row.Success? && r.value == (t, Some(row.value))
  {
    if StartsWith(pcs[0], "!") then
      var t :- Directive(s, pcs[0][1..], pcs[1..], env.parse, env.canOpen);
      Success((t, None))
    else if s.video.None? then Failure(NoVideo)
    else
      var (x, t) :- NextX(s, pcs[0], env.parse);
      if |pcs| < 2 then Failure(MissingToken)
      else
        var (start, stop) :- TimeRange(pcs[1], env.parse, env.parseInt);
        var row :- Period(ClipPeaks(s.video.value, start, stop, env, opts.threshold),
                          Transform(s, x), opts.uncertainty, env.sqrt);
        Success((t, Some(row)))
  }

  /** A line that yields a row: kept by the comment filter and not a
      `!` directive. */
  predicate IsDataLine(line: string) {
    !IsSkipped(line) && var f := Fields(line); |f| > 0 && !StartsWith(f[0], "!")
  }

  /** The number of data lines. */
  function DataLineCount(lines: seq<string>): (n: nat)
    ensures n <= |lines|
  {
    if |lines| == 0 then 0 else (if IsDataLine(lines[0]) then 1 else 0) + DataLineCount(lines[1..])
  }

  /** Every row keeps the command line's absolute floors. */
  predicate AboveFloors(rows: seq<PeriodRow>, u: Uncertainty) {
    forall k :: 0 <= k < |rows| ==> rows[k].xu >= u.x && rows[k].pu >= u.y
  }

  /** The lines from the current one on, in state `s`: on success, one row
      per data line, each above the absolute floors. */
  function Lines(lines: seq<string>, s: State, env: Env, opts: Options): (r: Result<seq<PeriodRow>, GenError>)
    requires ValidFinder(env.findPeaks) && PositiveSqrt(env.sqrt)
    ensures r.Success? ==> |r.value| == DataLineCount(lines)
    ensures r.Success? ==> AboveFloors(r.value, opts.uncertainty)
    ensures |lines| == 0 ==> r == Success([])
    ensures |lines| > 0 && IsSkipped(lines[0]) ==> r == Lines(lines[1..], s, env, opts)
    ensures |lines| > 0 && !IsSkipped(lines[0]) && |Fields(lines[0])| > 0 ==>
              var l := Line(s, Fields(lines[0]), env, opts);
              && (r.Success? <==> l.Success? && Lines(lines[1..], l.value.0, env, opts).Success?)
              && (r.Success? ==>
                    var rest := Lines(lines[1..], l.value.0, env, opts).value;
                    r.value == if l.value.1.Some? then [l.value.1.value] + rest else rest)
    decreases |lines|
  {
    if |lines| == 0 then Success([])
    else if IsSkipped(lines[0]) then Lines(lines[1..], s, env, opts)
    else
      KeptLineHasField(lines[0]);
      var (t, row) :- Line(s, Fields(lines[0]), env, opts);
      var rest :- Lines(lines[1..], t, env, opts);
      Success(Emit(row, rest, opts.uncertainty))
  }

  /** The rows so far, after the one a line may have yielded. */
  function Emit(row: Option<PeriodRow>, rest: seq<PeriodRow>, u: Uncertainty): (r: seq<PeriodRow>)
    requires row.Some? ==> row.value.xu >= u.x && row.value.pu >= u.y
    requires AboveFloors(rest, u)
    ensures |r| == (if row.Some? then 1 else 0) + |rest|
    ensures AboveFloors(r, u)
  {
    if row.Some? then [row.value] + rest else rest
  }

  /** A file of only blank and comment lines writes nothing and succeeds. */
  lemma {:induction false} SkippedOnly(lines: seq<string>, s: State, env: Env, opts: Options)
    requires ValidFinder(env.findPeaks) && PositiveSqrt(env.sqrt)
    requires forall k :: 0 <= k < |lines| ==> IsSkipped(lines[k])
    ensures Lines(lines, s, env, opts) == Success([])
    decreases |lines|
  {
    if |lines| > 0 {
      assert forall k :: 0 <= k < |lines| - 1 ==> lines[1..][k] == lines[k + 1];
      SkippedOnly(lines[1..], s, env, opts);
    }
  }

  /** `main`: the rows written for a times file, one per data line. */
  function Run(lines: seq<string>, env: Env, opts: Options): (r: Result<seq<PeriodRow>, GenError>)
    requires ValidFinder(env.findPeaks) && PositiveSqrt(env.sqrt)
    ensures r.Success? ==> |r.value| == DataLineCount(lines)
    ensures r.Success? ==> AboveFloors(r.value, opts.uncertainty)
  {
    Lines(lines, Initial(opts.offset, opts.negate), env, opts)
  }

  /** A data line before any video is named ends the script with an error,
      whatever follows it. */
  lemma DataBeforeVideo(line: string, rest: seq<string>, offset: real, negate: bool, env: Env, opts: Options)
    requires ValidFinder(env.findPeaks) && PositiveSqrt(env.sqrt)
    requires !IsSkipped(line)
    requires !StartsWith(Fields(line)[0], "!")
    ensures Lines([line] + rest, Initial(offset, negate), env, opts) == Failure(NoVideo)
  {
    KeptLineHasField(line);
    assert ([line] + rest)[0] == line;
  }
}

=== FILE: length_fit.dfy ===
/** The period as a function of string length, `T(L) = k * (L0 + L)^n`,
    fitted either by least squares or by orthogonal distance regression
    (which also weighs the x and y uncertainties). Both fitting routines
    are taken as given; the model fixes the function each is handed, what
    is read back out of each, and the residual rows that are saved. */
module LengthFit {
  import opened Wrappers
  import opened DataFile
  import AmplitudeFit

  /** Python's `**` on floats. */
  type Power = (real, real) -> real

  /** `fitfunc(l, k, n, l0) = k * (l0 + l) ** n`. */
  function FitFunc(l: real, k: real, n: real, l0: real, pow: Power): real {
    k * pow(l0 + l, n)
  }

  /** `odr_fitfunc(p, l) = p[0] * (p[2] + l) ** p[1]`: the same curve with
      the parameters packed as `[k, n, l0]`. */
  function OdrFitFunc(p: seq<real>, l: real, pow: Power): (t: real)
    requires |p| >= 3
  {
    p[0] * pow(p[2] + l, p[1])
  }

  /** The two forms agree on every parameter vector, so both fits describe
      the same family of curves and report parameters in the same order. */
  lemma OdrAgrees(p: seq<real>, l: real, pow: Power)
    requires |p| >= 3
    ensures OdrFitFunc(p, l, pow) == FitFunc(l, p[0], p[1], p[2], pow)
    ensures OdrFitFunc([p[0], p[1], p[2]], l, pow) == OdrFitFunc(p, l, pow)
  {
  }

  /** The default initial guesses for `k`, `n` and `L0`. */
  const DefaultGuess: seq<real> := [2.0, 0.5, 0.0]

  /** `odr.ODR(...).run()`: the fitted `beta` and its `sd_beta`. */
  datatype OdrOutput = OdrOutput(beta: seq<real>, sdBeta: seq<real>)

  /** The ODR solver on the data (with its uncertainties) and `beta0`. */
  type Odr = (seq<Point>, seq<real>) -> OdrOutput

  /** `optimize.curve_fit(fitfunc, x, y, p0=guesses)`. */
  type LeastSquares = (seq<Point>, seq<real>) -> AmplitudeFit.Solution

  /** Each solver returns one value per initial guess (and, for least
      squares, a square covariance matrix). */
  ghost predicate ValidSolvers(odr: Odr, lsq: LeastSquares) {
    && (forall pts, guess :: |odr(pts, guess).beta| == |guess| && |odr(pts, guess).sdBeta| == |guess|)
    && (forall pts, guess :: AmplitudeFit.Shaped(lsq(pts, guess), |guess|))
  }

  /** `do_fit`: the parameters and their standard deviations, from the ODR
      output as is, or from `popt` and the roots of the covariance
      diagonal. */
  function DoFit(points: seq<Point>, guesses: seq<real>, useOdr: bool, odr: Odr, lsq: LeastSquares,
                 sqrt: real -> real): (r: (seq<real>, seq<real>))
    requires ValidSolvers(odr, lsq)
    ensures |r.0| == |guesses| && |r.1| == |guesses|
    ensures useOdr ==> r == (odr(points, guesses).beta, odr(points, guesses).sdBeta)
    ensures !useOdr ==>
              && r.0 == lsq(points, guesses).popt
              && forall i :: 0 <= i < |guesses| ==> r.1[i] == sqrt(lsq(points, guesses).pcov[i][i])
  {
    if useOdr then
      var out := odr(points, guesses);
      (out.beta, out.sdBeta)
    else
      var sol := lsq(points, guesses);
      assert AmplitudeFit.Shaped(sol, |guesses|);
      (sol.popt, AmplitudeFit.Diagonal(sol.pcov, |guesses|, sqrt))
  }

  /** What `main` prints and saves: `k`, `n`, `L0`, their deviations, and
      the residual rows. */
  datatype Report = Report(k: real, n: real, l0: real, sk: real, sn: real, sl0: real, residuals: seq<Point>)

  /** The fit and its report on loaded points. */
  function FitPoints(points: seq<Point>, guesses: seq<real>, useOdr: bool, odr: Odr, lsq: LeastSquares,
                     sqrt: real -> real, pow: Power): (r: Report)
    requires ValidSolvers(odr, lsq) && |guesses| == 3
    ensures var fit := DoFit(points, guesses, useOdr, odr, lsq, sqrt);
            && [r.k, r.n, r.l0] == fit.0
            && [r.sk, r.sn, r.sl0] == fit.1
    ensures |r.residuals| == |points|
    ensures forall i :: 0 <= i < |points| ==>
              && r.residuals[i].y == points[i].y - FitFunc(points[i].x, r.k, r.n, r.l0, pow)
              && r.residuals[i].x == points[i].x
              && r.residuals[i].xu == points[i].xu && r.residuals[i].yu == points[i].yu
  {
    var (p, sd) := DoFit(points, guesses, useOdr, odr, lsq, sqrt);
    var k, n, l0 := p[0], p[1], p[2];
    Report(k, n, l0, sd[0], sd[1], sd[2], Residuals(points, l => FitFunc(l, k, n, l0, pow)))
  }

  datatype LengthError =
    | LoadFailed(cause: LoadError) // `load_data` raises
    | FlatDomain                   // `min(x_data)` of no rows, or a zero `np.arange` step

  /** `main` without the plots: load `x y xu yu` rows (absent uncertainty
      columns read as 0), fit from the three guesses, and report. The
      plotted domain needs two distinct x values, as in the amplitude fit. */
  function FitLength(lines: seq<string>, parse: RealParser, guessK: real, guessN: real, guessL: real,
                     useOdr: bool, odr: Odr, lsq: LeastSquares, sqrt: real -> real, pow: Power)
    : (r: Result<Report, LengthError>)
    requires ValidSolvers(odr, lsq)
    ensures Load(lines, parse, true).Failure? ==> r == Failure(LoadFailed(Load(lines, parse, true).error))
    ensures r.Success? <==> Load(lines, parse, true).Success? && AmplitudeFit.HasDomain(Load(lines, parse, true).value)
    ensures r.Success? ==>
              var points := Load(lines, parse, true).value;
              var fit := DoFit(points, [guessK, guessN, guessL], useOdr, odr, lsq, sqrt);
              && [r.value.k, r.value.n, r.value.l0] == fit.0
              && [r.value.sk, r.value.sn, r.value.sl0] == fit.1
              && |r.value.residuals| == |points|
              && forall i :: 0 <= i < |points| ==>
                   r.value.residuals[i].y == points[i].y - FitFunc(points[i].x, r.value.k, r.value.n, r.value.l0, pow)
  {
    var loaded := Load(lines, parse, true);
    if loaded.Failure? then Failure(LoadFailed(loaded.error))
    else
      var points := loaded.value;
      if !AmplitudeFit.HasDomain(points) then Failure(FlatDomain)
      else Success(FitPoints(points, [guessK, guessN, guessL], useOdr, odr, lsq, sqrt, pow))
  }
}

=== FILE: process_data.dfy ===
/** Extrema extraction for the amplitude experiment: raw peak indices are
    clustered into runs of near-coincident peaks, each run is averaged into
    one merged extremum, minima are found on the negated series, and the
    merged extrema are turned into `(angle, period)` rows, either per half
    oscillation (minima and maxima merged by time) or per full oscillation
    (minima forward, then maxima backward). */
module ProcessData {
  import opened Wrappers
  import opened Stats
  import opened DataFile

  /** One merged extremum: the mean time and mean angle of a run of raw
      peaks, and the population standard deviation of the run's times. */
  datatype Merged = Merged(time: real, angle: real, spread: real)

  /** One output line `angle period`. */
  datatype Row = Row(angle: real, period: real)

  datatype Kind = Minimum | Maximum

  /** A merged extremum tagged with the array it came from. */
  datatype Extremum = Extremum(kind: Kind, time: real, angle: real)

  /** `sqrt`, taken as given. */
  type Sqrt = real -> real

  predicate InRange(idx: seq<nat>, n: nat) {
    forall k :: 0 <= k < |idx| ==> idx[k] < n
  }

  predicate StrictlyIncreasing(s: seq<real>) {
    forall i, j :: 0 <= i < j < |s| ==> s[i] < s[j]
  }

  /** `data[idx]` with an index array, numpy's fancy indexing. */
  function Select(s: seq<real>, idx: seq<nat>): (r: seq<real>)
    requires InRange(idx, |s|)
    ensures |r| == |idx| && forall k :: 0 <= k < |idx| ==> r[k] == s[idx[k]]
  {
    seq(|idx|, k requires 0 <= k < |idx| => s[idx[k]])
  }

  // ---------------------------------------------------------------------
  // Runs of near-coincident peaks
  // ---------------------------------------------------------------------

  /** The time from the peak before position `k` to the peak at `k`. */
  function Gap(t: seq<real>, k: nat): real
    requires 1 <= k < |t|
  {
    t[k] - t[k - 1]
  }

  /** Scanning forward from position `j`, the first position that starts a
      new run: the end of the list, or a gap to the previous peak of at
      least `threshold`. */
  function RunEnd(t: seq<real>, j: nat, threshold: real): (e: nat)
    requires 1 <= j <= |t|
    ensures j <= e <= |t|
    ensures forall k :: j <= k < e ==> Gap(t, k) < threshold
    ensures e == |t| || Gap(t, e) >= threshold
    decreases |t| - j
  {
    if j == |t| || Gap(t, j) >= threshold then j else RunEnd(t, j + 1, threshold)
  }

  /** The run boundaries from position `i` on: `i`, then the start of
      every later run, then `|t|`. Run `m` is `[b[m], b[m+1])`. */
  function Bounds(t: seq<real>, threshold: real, i: nat): (b: seq<nat>)
    requires i <= |t|
    ensures 1 <= |b| <= |t| - i + 1
    ensures b[0] == i && b[|b| - 1] == |t|
    ensures Increasing(b)
    decreases |t| - i
  {
    if i == |t| then [i]
    else
      var e := RunEnd(t, i + 1, threshold);
      var rest := Bounds(t, threshold, e);
      assert forall q :: 0 <= q < |rest| ==> e <= rest[q] by {
        forall q | 0 < q < |rest| ensures e <= rest[q] {
          assert rest[0] < rest[q];
        }
      }
      [i] + rest
  }

  /** Strictly increasing. */
  predicate Increasing(b: seq<nat>) {
    forall p, q :: 0 <= p < q < |b| ==> b[p] < b[q]
  }

  /** A position strictly inside `i..|t|` is a run boundary exactly when
      the gap before it is at least the threshold: runs extend while gaps
      stay below it. */
  lemma {:induction false} BoundsPartition(t: seq<real>, threshold: real, i: nat)
    requires i <= |t|
    ensures forall k :: i < k < |t| ==> (k in Bounds(t, threshold, i) <==> Gap(t, k) >= threshold)
    decreases |t| - i
  {
    if i < |t| {
      var e := RunEnd(t, i + 1, threshold);
      var rest := Bounds(t, threshold, e);
      var b := Bounds(t, threshold, i);
      BoundsPartition(t, threshold, e);
      assert b == [i] + rest;
      forall k | i < k < |t|
        ensures k in b <==> Gap(t, k) >= threshold
      {
        if k < e {
          assert Gap(t, k) < threshold;
          assert k !in rest by {
            forall q | 0 <= q < |rest| ensures rest[q] != k {
              if q > 0 {
                assert rest[0] < rest[q];
              }
            }
          }
        } else if k == e {
          assert rest[0] == e;
        }
      }
    }
  }

  /** The cut points determine the partition: any strictly increasing list
      from `i` to `|t|` whose inner positions are exactly the large gaps is
      the boundary list. */
  lemma {:induction false} BoundsUnique(t: seq<real>, threshold: real, i: nat, b: seq<nat>)
    requires i <= |t|
    requires |b| >= 1 && b[0] == i && b[|b| - 1] == |t| && Increasing(b)
    requires forall k :: i < k < |t| ==> (k in b <==> Gap(t, k) >= threshold)
    ensures b == Bounds(t, threshold, i)
    decreases |t| - i
  {
    IncreasingEnds(b);
    if i < |t| {
      var e := RunEnd(t, i + 1, threshold);
      FirstCut(t, threshold, i, b);
      var rest := b[1..];
      LaterCuts(t, threshold, i, b);
      BoundsUnique(t, threshold, e, rest);
      assert b == [i] + rest;
    }
  }

  /** The second boundary of such a list is where the first run ends. */
  lemma FirstCut(t: seq<real>, threshold: real, i: nat, b: seq<nat>)
    requires i < |t|
    requires |b| >= 1 && b[0] == i && b[|b| - 1] == |t| && Increasing(b)
    requires forall k :: i < k < |t| ==> (k in b <==> Gap(t, k) >= threshold)
    ensures |b| > 1 && b[1] == RunEnd(t, i + 1, threshold)
  {
    var e := RunEnd(t, i + 1, threshold);
    IncreasingEnds(b);
    if b[1] < |t| {
      assert Gap(t, b[1]) >= threshold;
    }
    assert e <= b[1];
    if e < |t| {
      assert e in b;
      var q :| 0 <= q < |b| && b[q] == e;
      assert b[1] <= b[q];
    } else {
      assert b[1] <= b[|b| - 1];
    }
  }

  /** Dropping the first boundary leaves a list of the same kind from the
      end of the first run. */
  lemma LaterCuts(t: seq<real>, threshold: real, i: nat, b: seq<nat>)
    requires i < |t| && |b| > 1 && b[1] == RunEnd(t, i + 1, threshold)
    requires b[0] == i && b[|b| - 1] == |t| && Increasing(b)
    requires forall k :: i < k < |t| ==> (k in b <==> Gap(t, k) >= threshold)
    ensures var rest := b[1..];
            && rest[0] == RunEnd(t, i + 1, threshold) && rest[|rest| - 1] == |t| && Increasing(rest)
            && forall k :: RunEnd(t, i + 1, threshold) < k < |t| ==> (k in rest <==> Gap(t, k) >= threshold)
  {
    var e := RunEnd(t, i + 1, threshold);
    var rest := b[1..];
    forall k | e < k < |t|
      ensures k in rest <==> Gap(t, k) >= threshold
    {
      if k in b {
        var q :| 0 <= q < |b| && b[q] == k;
        assert rest[q - 1] == k;
      }
      if k in rest {
        var q :| 0 <= q < |rest| && rest[q] == k;
        assert b[q + 1] == k;
      }
    }
  }

  /** An increasing list with equal ends has one element. */
  lemma IncreasingEnds(b: seq<nat>)
    requires |b| >= 1 && Increasing(b)
    ensures b[0] == b[|b| - 1] ==> |b| == 1
    ensures |b| > 1 ==> b[0] < b[|b| - 1]
  {
  }

  /** With strictly increasing times and a threshold of at most zero no two
      peaks merge: every position is a boundary. */
  lemma {:induction false} SingletonBounds(t: seq<real>, threshold: real, i: nat)
    requires i <= |t|
    requires StrictlyIncreasing(t) && threshold <= 0.0
    ensures |Bounds(t, threshold, i)| == |t| - i + 1
    ensures forall m :: 0 <= m < |Bounds(t, threshold, i)| ==> Bounds(t, threshold, i)[m] == i + m
    decreases |t| - i
  {
    if i < |t| {
      if i + 1 < |t| {
        assert Gap(t, i + 1) > 0.0;
      }
      assert RunEnd(t, i + 1, threshold) == i + 1;
      SingletonBounds(t, threshold, i + 1);
    }
  }

  // ---------------------------------------------------------------------
  // Averaging the runs
  // ---------------------------------------------------------------------

  /** One run averaged: mean time, mean angle, population std of the times. */
  function MergeRun(t: seq<real>, a: seq<real>, sqrt: Sqrt, lo: nat, hi: nat): Merged
    requires |t| == |a| && lo < hi <= |t|
  {
    var ts := t[lo..hi];
    Merged(Mean(ts), Mean(a[lo..hi]), sqrt(Variance(ts)))
  }

  /** The runs from position `i` on, each averaged, in order: what the
      clustering loop appends from its `i`-th peak onwards. */
  function ClusterFrom(t: seq<real>, a: seq<real>, threshold: real, sqrt: Sqrt, i: nat): (r: seq<Merged>)
    requires |t| == |a| && i <= |t|
    ensures |r| <= |t| - i
    decreases |t| - i
  {
    if i == |t| then []
    else
      var e := RunEnd(t, i + 1, threshold);
      [MergeRun(t, a, sqrt, i, e)] + ClusterFrom(t, a, threshold, sqrt, e)
  }

  /** The merged extrema of peak times `t` and peak angles `a`; there are
      never more of them than raw peaks. */
  function Clustered(t: seq<real>, a: seq<real>, threshold: real, sqrt: Sqrt): (r: seq<Merged>)
    requires |t| == |a|
    ensures |r| <= |t|
    ensures |r| == 0 <==> |t| == 0
  {
    ClusterFrom(t, a, threshold, sqrt, 0)
  }

  /** The clustering averages exactly the runs of the boundary list:
      merged extremum `m` is the average of peaks `b[m]` up to `b[m+1]`. */
  lemma {:induction false} ClusterBounds(t: seq<real>, a: seq<real>, threshold: real, sqrt: Sqrt, i: nat)
    requires |t| == |a| && i <= |t|
    ensures |ClusterFrom(t, a, threshold, sqrt, i)| == |Bounds(t, threshold, i)| - 1
    ensures forall m {:trigger ClusterFrom(t, a, threshold, sqrt, i)[m]} :: 0 <= m < |ClusterFrom(t, a, threshold, sqrt, i)| ==>
              var b := Bounds(t, threshold, i);
              b[m] < b[m + 1] <= |t| && ClusterFrom(t, a, threshold, sqrt, i)[m] == MergeRun(t, a, sqrt, b[m], b[m + 1])
    decreases |t| - i
  {
    if i < |t| {
      var e := RunEnd(t, i + 1, threshold);
      ClusterBounds(t, a, threshold, sqrt, e);
      var b := Bounds(t, threshold, i);
      var rest := Bounds(t, threshold, e);
      assert b == [i] + rest;
      var c := ClusterFrom(t, a, threshold, sqrt, i);
      var cr := ClusterFrom(t, a, threshold, sqrt, e);
      assert c == [MergeRun(t, a, sqrt, i, e)] + cr;
      forall m {:trigger c[m]} | 0 <= m < |c|
        ensures b[m] < b[m + 1] <= |t| && c[m] == MergeRun(t, a, sqrt, b[m], b[m + 1])
      {
        if m > 0 {
          assert c[m] == cr[m - 1];
          assert b[m] == rest[m - 1] && b[m + 1] == rest[m];
        }
      }
    }
  }

  /** `averaged_peaks`: clusters the raw peaks `peaks` of the series `(x, y)`. */
  method AveragedPeaks(x: seq<real>, y: seq<real>, peaks: seq<nat>, threshold: real, sqrt: Sqrt)
    returns (merged: seq<Merged>)
    requires |x| == |y| && InRange(peaks, |x|)
    ensures merged == Clustered(Select(x, peaks), Select(y, peaks), threshold, sqrt)
  {
    merged := AverageRuns(Select(x, peaks), Select(y, peaks), threshold, sqrt);
  }

  /** The clustering loop on the selected peak times `t` and angles `a`:
      it walks run starts, averaging each run as it is found. */
  method AverageRuns(t: seq<real>, a: seq<real>, threshold: real, sqrt: Sqrt) returns (merged: seq<Merged>)
    requires |t| == |a|
    ensures merged == Clustered(t, a, threshold, sqrt)
  {
    ghost var target := Clustered(t, a, threshold, sqrt);
    merged := [];
    var i := 0;
    while i < |t|
      invariant i <= |t|
      invariant Covers(t, a, threshold, sqrt, merged, i, target)
      decreases |t| - i
    {
      merged, i := AverageNextRun(t, a, threshold, sqrt, merged, i, target);
    }
  }

  /** The loop invariant: the averages so far, followed by those of the
      runs from `i` on, make up the whole clustered output. */
  predicate Covers(t: seq<real>, a: seq<real>, threshold: real, sqrt: Sqrt, merged: seq<Merged>, i: nat, target: seq<Merged>)
    requires |t| == |a| && i <= |t|
  {
    merged + ClusterFrom(t, a, threshold, sqrt, i) == target
  }

  /** One pass of the outer loop body: measures the run starting at `i`,
      appends its average, and moves `i` past it. */
  method AverageNextRun(t: seq<real>, a: seq<real>, threshold: real, sqrt: Sqrt, merged: seq<Merged>, i: nat,
                        ghost target: seq<Merged>)
    returns (merged': seq<Merged>, i': nat)
    requires |t| == |a| && i < |t|
    requires Covers(t, a, threshold, sqrt, merged, i, target)
    ensures i < i' <= |t|
    ensures Covers(t, a, threshold, sqrt, merged', i', target)
  {
    var n := RunLength(t, i, threshold);
    AppendRun(t, a, threshold, sqrt, i, n, merged, target);
    merged' := merged + [MergeRun(t, a, sqrt, i, i + n)];
    i' := i + n;
  }

  /** The inner loop: the number of peaks in the run starting at `i`,
      extending it while the gap to the previous peak stays below the
      threshold. */
  method RunLength(t: seq<real>, i: nat, threshold: real) returns (n: nat)
    requires i < |t|
    ensures n == RunEnd(t, i + 1, threshold) - i
  {
    n := 1;
    var j := i + 1;
    while j < |t|
      invariant i + 1 <= j <= |t|
      invariant n == j - i
      invariant RunEnd(t, j, threshold) == RunEnd(t, i + 1, threshold)
      decreases |t| - j
    {
      if t[j] - t[j - 1] < threshold {
        assert Gap(t, j) < threshold;
        n := n + 1;
      } else {
        break;
      }
      j := j + 1;
    }
  }

  /** Appending the average of the `n`-peak run at `i` and resuming after
      it keeps the loop invariant. */
  lemma AppendRun(t: seq<real>, a: seq<real>, threshold: real, sqrt: Sqrt, i: nat, n: nat,
                  merged: seq<Merged>, target: seq<Merged>)
    requires |t| == |a| && i < |t| && n == RunEnd(t, i + 1, threshold) - i
    requires Covers(t, a, threshold, sqrt, merged, i, target)
    ensures i + n <= |t|
    ensures Covers(t, a, threshold, sqrt, merged + [MergeRun(t, a, sqrt, i, i + n)], i + n, target)
  {
    var m := MergeRun(t, a, sqrt, i, i + n);
    var rest := ClusterFrom(t, a, threshold, sqrt, i + n);
    assert ClusterFrom(t, a, threshold, sqrt, i) == [m] + rest;
    assert (merged + [m]) + rest == merged + ([m] + rest);
  }

  /** With strictly increasing times and a non-positive threshold every
      peak is its own extremum, with zero spread. */
  lemma ClusteredSingletons(t: seq<real>, a: seq<real>, threshold: real, sqrt: Sqrt)
    requires |t| == |a| && StrictlyIncreasing(t) && threshold <= 0.0
    ensures |Clustered(t, a, threshold, sqrt)| == |t|
    ensures forall k :: 0 <= k < |t| ==> Clustered(t, a, threshold, sqrt)[k] == Merged(t[k], a[k], sqrt(0.0))
  {
    SingletonBounds(t, threshold, 0);
    ClusterBounds(t, a, threshold, sqrt, 0);
    var b := Bounds(t, threshold, 0);
    var c := Clustered(t, a, threshold, sqrt);
    forall k | 0 <= k < |t|
      ensures c[k] == Merged(t[k], a[k], sqrt(0.0))
    {
      assert b[k] == k && b[k + 1] == k + 1;
      assert c[k] == MergeRun(t, a, sqrt, k, k + 1);
      assert t[k..k + 1] == [t[k]];
      assert a[k..k + 1] == [a[k]];
      SingletonVariance(t[k]);
      assert Sum([t[k]]) == t[k];
      assert Sum([a[k]]) == a[k];
    }
  }

  /** Each merged time is the mean of its run, so it lies between the
      earliest and latest time of the run (likewise the angle); a run of one
      peak has zero spread. */
  lemma MergedWithinRun(t: seq<real>, a: seq<real>, threshold: real, sqrt: Sqrt, m: nat)
    requires |t| == |a| && m < |Clustered(t, a, threshold, sqrt)|
    ensures var b := Bounds(t, threshold, 0);
            var c := Clustered(t, a, threshold, sqrt)[m];
            && m + 1 < |b| && b[m] < b[m + 1] <= |t|
            && MinOf(t[b[m]..b[m + 1]]) <= c.time <= MaxOf(t[b[m]..b[m + 1]])
            && MinOf(a[b[m]..b[m + 1]]) <= c.angle <= MaxOf(a[b[m]..b[m + 1]])
            && (b[m + 1] == b[m] + 1 ==> c.spread == sqrt(0.0))
  {
    ClusterBounds(t, a, threshold, sqrt, 0);
    var b := Bounds(t, threshold, 0);
    assert Clustered(t, a, threshold, sqrt)[m] == MergeRun(t, a, sqrt, b[m], b[m + 1]);
    RunWithin(t, a, sqrt, b[m], b[m + 1]);
  }

  lemma RunWithin(t: seq<real>, a: seq<real>, sqrt: Sqrt, lo: nat, hi: nat)
    requires |t| == |a| && lo < hi <= |t|
    ensures var c := MergeRun(t, a, sqrt, lo, hi);
            && MinOf(t[lo..hi]) <= c.time <= MaxOf(t[lo..hi])
            && MinOf(a[lo..hi]) <= c.angle <= MaxOf(a[lo..hi])
            && (hi == lo + 1 ==> c.spread == sqrt(0.0))
  {
    MeanBetweenExtremes(t[lo..hi]);
    MeanBetweenExtremes(a[lo..hi]);
    if hi == lo + 1 {
      assert t[lo..hi] == [t[lo]];
      SingletonVariance(t[lo]);
    }
  }

  /** With strictly increasing raw times, merged times are strictly
      increasing too: runs are disjoint and each mean stays inside its run. */
  lemma ClusteredTimesIncrease(t: seq<real>, a: seq<real>, threshold: real, sqrt: Sqrt)
    requires |t| == |a| && StrictlyIncreasing(t)
    ensures StrictlyIncreasing(Times(Clustered(t, a, threshold, sqrt)))
  {
    var c := Clustered(t, a, threshold, sqrt);
    forall i, j | 0 <= i < j < |c|
      ensures c[i].time < c[j].time
    {
      ClusteredPairOrdered(t, a, threshold, sqrt, i, j);
    }
    var times := Times(c);
    assert forall i, j :: 0 <= i < j < |times| ==> times[i] == c[i].time && times[j] == c[j].time;
  }

  lemma ClusteredPairOrdered(t: seq<real>, a: seq<real>, threshold: real, sqrt: Sqrt, i: nat, j: nat)
    requires |t| == |a| && StrictlyIncreasing(t) && i < j < |Clustered(t, a, threshold, sqrt)|
    ensures Clustered(t, a, threshold, sqrt)[i].time < Clustered(t, a, threshold, sqrt)[j].time
  {
    ClusterBounds(t, a, threshold, sqrt, 0);
    var b := Bounds(t, threshold, 0);
    var c := Clustered(t, a, threshold, sqrt);
    assert c[i] == MergeRun(t, a, sqrt, b[i], b[i + 1]);
    assert c[j] == MergeRun(t, a, sqrt, b[j], b[j + 1]);
    if i + 1 < j {
      assert b[i + 1] < b[j];
    }
    OrderedRuns(t, a, sqrt, b[i], b[i + 1], b[j], b[j + 1]);
  }

  /** Of two disjoint runs, the earlier one has the earlier mean time. */
  lemma OrderedRuns(t: seq<real>, a: seq<real>, sqrt: Sqrt, lo1: nat, hi1: nat, lo2: nat, hi2: nat)
    requires |t| == |a| && lo1 < hi1 <= lo2 < hi2 <= |t| && StrictlyIncreasing(t)
    ensures MergeRun(t, a, sqrt, lo1, hi1).time < MergeRun(t, a, sqrt, lo2, hi2).time
  {
    RunTimeWithin(t, a, sqrt, lo1, hi1);
    RunTimeWithin(t, a, sqrt, lo2, hi2);
    assert t[hi1 - 1] < t[lo2];
  }

  /** The mean time of a run lies between its first and last time. */
  lemma RunTimeWithin(t: seq<real>, a: seq<real>, sqrt: Sqrt, lo: nat, hi: nat)
    requires |t| == |a| && lo < hi <= |t| && StrictlyIncreasing(t)
    ensures t[lo] <= MergeRun(t, a, sqrt, lo, hi).time <= t[hi - 1]
  {
    var ts := t[lo..hi];
    forall k | 0 <= k < |ts|
      ensures t[lo] <= ts[k] <= t[hi - 1]
    {
      assert ts[k] == t[lo + k];
    }
    MeanWithin(ts, t[lo], t[hi - 1]);
  }

  /** The times of a sampled `(time, angle)` series. */
  function SampleTimes(s: seq<(real, real)>): (r: seq<real>)
    ensures |r| == |s| && forall k :: 0 <= k < |s| ==> r[k] == s[k].0
  {
    seq(|s|, k requires 0 <= k < |s| => s[k].0)
  }

  /** The angles of a sampled `(time, angle)` series. */
  function SampleAngles(s: seq<(real, real)>): (r: seq<real>)
    ensures |r| == |s| && forall k :: 0 <= k < |s| ==> r[k] == s[k].1
  {
    seq(|s|, k requires 0 <= k < |s| => s[k].1)
  }

  function Times(ms: seq<Merged>): (r: seq<real>)
    ensures |r| == |ms| && forall k :: 0 <= k < |ms| ==> r[k] == ms[k].time
  {
    seq(|ms|, k requires 0 <= k < |ms| => ms[k].time)
  }

  /** Angles negated back after clustering the negated series. */
  function NegateAngles(ms: seq<Merged>): (r: seq<Merged>)
    ensures |r| == |ms|
    ensures forall k :: 0 <= k < |ms| ==> r[k] == ms[k].(angle := -ms[k].angle)
  {
    if |ms| == 0 then [] else [ms[0].(angle := -ms[0].angle)] + NegateAngles(ms[1..])
  }

  /** Finding minima as maxima of `-y` and negating the merged angles back
      gives exactly the averages of the true angles at the minima. */
  lemma MinimaByNegation(t: seq<real>, a: seq<real>, threshold: real, sqrt: Sqrt)
    requires |t| == |a|
    ensures NegateAngles(Clustered(t, Neg(a), threshold, sqrt)) == Clustered(t, a, threshold, sqrt)
  {
    NegationFrom(t, a, threshold, sqrt, 0);
  }

  lemma {:induction false} NegationFrom(t: seq<real>, a: seq<real>, threshold: real, sqrt: Sqrt, i: nat)
    requires |t| == |a| && i <= |t|
    ensures NegateAngles(ClusterFrom(t, Neg(a), threshold, sqrt, i)) == ClusterFrom(t, a, threshold, sqrt, i)
    decreases |t| - i
  {
    if i < |t| {
      var e := RunEnd(t, i + 1, threshold);
      var neg := ClusterFrom(t, Neg(a), threshold, sqrt, e);
      var m := MergeRun(t, Neg(a), sqrt, i, e);
      assert ClusterFrom(t, Neg(a), threshold, sqrt, i) == [m] + neg;
      NegationFrom(t, a, threshold, sqrt, e);
      RunNegation(t, a, sqrt, i, e);
      NegateAnglesCons(m, neg);
      assert ClusterFrom(t, a, threshold, sqrt, i) == [MergeRun(t, a, sqrt, i, e)] + ClusterFrom(t, a, threshold, sqrt, e);
    }
  }

  lemma NegateAnglesCons(m: Merged, ms: seq<Merged>)
    ensures NegateAngles([m] + ms) == [m.(angle := -m.angle)] + NegateAngles(ms)
  {
    assert ([m] + ms)[1..] == ms;
  }

  lemma RunNegation(t: seq<real>, a: seq<real>, sqrt: Sqrt, lo: nat, hi: nat)
    requires |t| == |a| && lo < hi <= |t|
    ensures MergeRun(t, Neg(a), sqrt, lo, hi) == MergeRun(t, a, sqrt, lo, hi).(angle := -MergeRun(t, a, sqrt, lo, hi).angle)
  {
    var s := a[lo..hi];
    assert Neg(a)[lo..hi] == Neg(s) by {
      forall k | 0 <= k < hi - lo
        ensures Neg(a)[lo..hi][k] == Neg(s)[k]
      {
        assert Neg(a)[lo..hi][k] == Neg(a)[lo + k];
      }
    }
    MeanNeg(s);
  }

  // ---------------------------------------------------------------------
  // Loading and extrema of one data file
  // ---------------------------------------------------------------------

  /** Subtracts the first time from every time. */
  function ShiftToStart(ts: seq<real>): (r: seq<real>)
    ensures |r| == |ts|
    ensures |ts| > 0 ==> r[0] == 0.0
    ensures forall i, j :: 0 <= i < |ts| && 0 <= j < |ts| ==> r[j] - r[i] == ts[j] - ts[i]
  {
    if |ts| == 0 then [] else seq(|ts|, k requires 0 <= k < |ts| => ts[k] - ts[0])
  }

  /** `load_data`: times shifted so the first kept line is at 0, angles
      as read. */
  function LoadSeries(lines: seq<string>, parse: RealParser): (r: Result<(seq<real>, seq<real>), LoadError>)
    ensures r.Success? <==> Load(lines, parse, false).Success?
    ensures r.Success? ==> |r.value.0| == |r.value.1| == |Text.KeptFields(lines)|
    ensures r.Success? && |r.value.0| > 0 ==> r.value.0[0] == 0.0
    ensures r.Success? ==> forall i, j :: 0 <= i < |r.value.0| && 0 <= j < |r.value.0| ==>
              r.value.0[j] - r.value.0[i] == parse(Text.KeptFields(lines)[j][0]).value - parse(Text.KeptFields(lines)[i][0]).value
    ensures r.Success? ==> forall k :: 0 <= k < |r.value.1| ==> r.value.1[k] == parse(Text.KeptFields(lines)[k][1]).value
  {
    var points :- Load(lines, parse, false);
    Success((ShiftToStart(Xs(points)), Ys(points)))
  }

  /** Python's `s[:n]` for an integer `n`: a prefix of `s`, of length `n`
      clipped to `|s|` when `n` is non-negative, and without the last `-n`
      entries (or empty) when `n` is negative. */
  function PyPrefix<T>(s: seq<T>, n: int): (r: seq<T>)
    ensures r <= s
    ensures n >= 0 ==> |r| == n || (|r| < n && r == s)
    ensures n < 0 ==> |r| - n == |s| || (|r| == 0 && |s| + n <= 0)
  {
    if n >= 0 then s[..if n < |s| then n else |s|]
    else s[..if |s| + n > 0 then |s| + n else 0]
  }

  /** The merged maxima and minima of one series: maxima from the raw peaks
      of `y`, minima from the raw peaks of `-y` with their angles negated
      back. */
  method Extrema(x: seq<real>, y: seq<real>, maxPeaks: seq<nat>, minPeaks: seq<nat>, threshold: real, sqrt: Sqrt)
    returns (maxima: seq<Merged>, minima: seq<Merged>)
    requires |x| == |y| && InRange(maxPeaks, |x|) && InRange(minPeaks, |x|)
    ensures maxima == Clustered(Select(x, maxPeaks), Select(y, maxPeaks), threshold, sqrt)
    ensures minima == Clustered(Select(x, minPeaks), Select(y, minPeaks), threshold, sqrt)
  {
    maxima := AveragedPeaks(x, y, maxPeaks, threshold, sqrt);
    var negated := AveragedPeaks(x, Neg(y), minPeaks, threshold, sqrt);
    assert Select(Neg(y), minPeaks) == Neg(Select(y, minPeaks));
    MinimaByNegation(Select(x, minPeaks), Select(y, minPeaks), threshold, sqrt);
    minima := NegateAngles(negated);
  }

  // ---------------------------------------------------------------------
  // Half oscillations: minima and maxima merged by time
  // ---------------------------------------------------------------------

  function Tag(kind: Kind, ms: seq<Merged>): (r: seq<Extremum>)
    ensures |r| == |ms|
    ensures forall k :: 0 <= k < |ms| ==> r[k] == Extremum(kind, ms[k].time, ms[k].angle)
  {
    seq(|ms|, k requires 0 <= k < |ms| => Extremum(kind, ms[k].time, ms[k].angle))
  }

  /** The merge the two-pointer loop performs: a minimum goes first only
      when it is strictly earlier, so on equal times the maximum leads. */
  function MergeByTime(mins: seq<Extremum>, maxs: seq<Extremum>): seq<Extremum>
    decreases |mins| + |maxs|
  {
    if |mins| == 0 then maxs
    else if |maxs| == 0 then mins
    else if mins[0].time < maxs[0].time then [mins[0]] + MergeByTime(mins[1..], maxs)
    else [maxs[0]] + MergeByTime(mins, maxs[1..])
  }

  /** The two-pointer merge of the half-oscillation mode. */
  method HalfMerge(mins: seq<Extremum>, maxs: seq<Extremum>) returns (r: seq<Extremum>)
    ensures r == MergeByTime(mins, maxs)
  {
    r := [];
    var i, j := 0, 0;
    while i < |mins| && j < |maxs|
      invariant i <= |mins| && j <= |maxs|
      invariant r + MergeByTime(mins[i..], maxs[j..]) == MergeByTime(mins, maxs)
      decreases |mins| + |maxs| - i - j
    {
      assert mins[i..][0] == mins[i] && maxs[j..][0] == maxs[j];
      if mins[i].time < maxs[j].time {
        assert mins[i..][1..] == mins[i + 1..];
        r := r + [mins[i]];
        i := i + 1;
      } else {
        assert maxs[j..][1..] == maxs[j + 1..];
        r := r + [maxs[j]];
        j := j + 1;
      }
    }
    r := r + mins[i..];
    r := r + maxs[j..];
  }

  /** The elements of one kind, in order. */
  function OfKind(s: seq<Extremum>, kind: Kind): seq<Extremum> {
    if |s| == 0 then [] else (if s[0].kind == kind then [s[0]] else []) + OfKind(s[1..], kind)
  }

  predicate AllOfKind(s: seq<Extremum>, kind: Kind) {
    forall k :: 0 <= k < |s| ==> s[k].kind == kind
  }

  lemma {:induction false} OfKindAll(s: seq<Extremum>, kind: Kind)
    requires AllOfKind(s, kind)
    ensures OfKind(s, kind) == s
  {
    if |s| > 0 {
      OfKindAll(s[1..], kind);
    }
  }

  lemma {:induction false} OfKindNone(s: seq<Extremum>, kind: Kind, other: Kind)
    requires AllOfKind(s, other) && kind != other
    ensures OfKind(s, kind) == []
  {
    if |s| > 0 {
      OfKindNone(s[1..], kind, other);
    }
  }

  /** The merge outputs every minimum and every maximum exactly once, and
      each side keeps its own order. */
  lemma MergeKeepsBothSides(mins: seq<Extremum>, maxs: seq<Extremum>)
    requires AllOfKind(mins, Minimum) && AllOfKind(maxs, Maximum)
    ensures |MergeByTime(mins, maxs)| == |mins| + |maxs|
    ensures multiset(MergeByTime(mins, maxs)) == multiset(mins) + multiset(maxs)
    ensures OfKind(MergeByTime(mins, maxs), Minimum) == mins
    ensures OfKind(MergeByTime(mins, maxs), Maximum) == maxs
  {
    MergePermutes(mins, maxs);
    MergeOfKind(mins, maxs);
  }

  lemma {:induction false} MergePermutes(mins: seq<Extremum>, maxs: seq<Extremum>)
    ensures |MergeByTime(mins, maxs)| == |mins| + |maxs|
    ensures multiset(MergeByTime(mins, maxs)) == multiset(mins) + multiset(maxs)
    decreases |mins| + |maxs|
  {
    if |mins| == 0 || |maxs| == 0 {
    } else if mins[0].time < maxs[0].time {
      var rest := MergeByTime(mins[1..], maxs);
      MergePermutes(mins[1..], maxs);
      assert MergeByTime(mins, maxs) == [mins[0]] + rest;
      ConsMultiset(mins);
      ConsMultiset([mins[0]] + rest);
      assert ([mins[0]] + rest)[1..] == rest;
    } else {
      var rest := MergeByTime(mins, maxs[1..]);
      MergePermutes(mins, maxs[1..]);
      assert MergeByTime(mins, maxs) == [maxs[0]] + rest;
      ConsMultiset(maxs);
      ConsMultiset([maxs[0]] + rest);
      assert ([maxs[0]] + rest)[1..] == rest;
    }
  }

  lemma ConsMultiset(s: seq<Extremum>)
    requires |s| > 0
    ensures multiset(s) == multiset{s[0]} + multiset(s[1..])
  {
    assert s == [s[0]] + s[1..];
  }

  lemma OfKindCons(p: Extremum, s: seq<Extremum>, kind: Kind)
    ensures OfKind([p] + s, kind) == (if p.kind == kind then [p] else []) + OfKind(s, kind)
  {
    assert ([p] + s)[1..] == s;
  }

  lemma {:induction false} MergeOfKind(mins: seq<Extremum>, maxs: seq<Extremum>)
    requires AllOfKind(mins, Minimum) && AllOfKind(maxs, Maximum)
    ensures OfKind(MergeByTime(mins, maxs), Minimum) == mins
    ensures OfKind(MergeByTime(mins, maxs), Maximum) == maxs
    decreases |mins| + |maxs|
  {
    if |mins| == 0 {
      OfKindAll(maxs, Maximum);
      OfKindNone(maxs, Minimum, Maximum);
    } else if |maxs| == 0 {
      OfKindAll(mins, Minimum);
      OfKindNone(mins, Maximum, Minimum);
    } else if mins[0].time < maxs[0].time {
      MergeOfKind(mins[1..], maxs);
      OfKindCons(mins[0], MergeByTime(mins[1..], maxs), Minimum);
      OfKindCons(mins[0], MergeByTime(mins[1..], maxs), Maximum);
      assert mins == [mins[0]] + mins[1..];
    } else {
      MergeOfKind(mins, maxs[1..]);
      OfKindCons(maxs[0], MergeByTime(mins, maxs[1..]), Minimum);
      OfKindCons(maxs[0], MergeByTime(mins, maxs[1..]), Maximum);
      assert maxs == [maxs[0]] + maxs[1..];
    }
  }

  predicate SortedByTime(s: seq<Extremum>) {
    forall k :: 0 <= k < |s| - 1 ==> s[k].time <= s[k + 1].time
  }

  /** `p` may directly precede `q`: earlier, or simultaneous with the
      maximum first. */
  predicate Precedes(p: Extremum, q: Extremum) {
    p.time < q.time || (p.time == q.time && (p.kind == q.kind || p.kind == Maximum))
  }

  predicate MergedOrder(s: seq<Extremum>) {
    forall k :: 0 <= k < |s| - 1 ==> Precedes(s[k], s[k + 1])
  }

  /** Merging two time-sorted arrays gives a time-sorted array in which a
      maximum precedes a minimum at the same time. */
  lemma {:induction false} MergeSorted(mins: seq<Extremum>, maxs: seq<Extremum>)
    requires AllOfKind(mins, Minimum) && AllOfKind(maxs, Maximum)
    requires SortedByTime(mins) && SortedByTime(maxs)
    ensures MergedOrder(MergeByTime(mins, maxs))
    ensures |MergeByTime(mins, maxs)| > 0 ==>
              MergeByTime(mins, maxs)[0] == (if |mins| == 0 || (|maxs| > 0 && mins[0].time >= maxs[0].time) then maxs[0] else mins[0])
    decreases |mins| + |maxs|
  {
    var m := MergeByTime(mins, maxs);
    if |mins| == 0 || |maxs| == 0 {
    } else if mins[0].time < maxs[0].time {
      var rest := mins[1..];
      MergeSorted(rest, maxs);
      assert m == [mins[0]] + MergeByTime(rest, maxs);
      assert forall k :: 0 <= k < |rest| ==> rest[k] == mins[k + 1];
    } else {
      var rest := maxs[1..];
      MergeSorted(mins, rest);
      assert m == [maxs[0]] + MergeByTime(mins, rest);
      assert forall k :: 0 <= k < |rest| ==> rest[k] == maxs[k + 1];
    }
  }

  /** `(earlier angle, 2 * gap)` for every consecutive pair. */
  function HalfRows(ps: seq<Extremum>): (r: seq<Row>)
    ensures |r| == if |ps| == 0 then 0 else |ps| - 1
    ensures forall k {:trigger r[k]} :: 0 <= k < |r| ==> r[k] == Row(ps[k].angle, (ps[k + 1].time - ps[k].time) * 2.0)
  {
    if |ps| < 2 then [] else [Row(ps[0].angle, (ps[1].time - ps[0].time) * 2.0)] + HalfRows(ps[1..])
  }

  function Periods(rows: seq<Row>): (r: seq<real>)
    ensures |r| == |rows| && forall k :: 0 <= k < |rows| ==> r[k] == rows[k].period
  {
    seq(|rows|, k requires 0 <= k < |rows| => rows[k].period)
  }

  /** The half-oscillation periods add up to twice the covered time span. */
  lemma HalfRowsTelescope(ps: seq<Extremum>)
    requires |ps| > 0
    ensures Sum(Periods(HalfRows(ps))) == 2.0 * (ps[|ps| - 1].time - ps[0].time)
  {
    var ts := seq(|ps|, k requires 0 <= k < |ps| => ps[k].time);
    var g := Gaps(ts);
    var p := Periods(HalfRows(ps));
    forall k | 0 <= k < |p|
      ensures p[k] == g[k] * 2.0
    {
      assert p[k] == HalfRows(ps)[k].period;
      assert g[k] == ts[k + 1] - ts[k];
    }
    GapsTelescope(ts);
    DoubledSum(g, p);
  }

  lemma {:induction false} DoubledSum(g: seq<real>, p: seq<real>)
    requires |g| == |p| && forall k :: 0 <= k < |p| ==> p[k] == g[k] * 2.0
    ensures Sum(p) == 2.0 * Sum(g)
  {
    if |p| > 0 {
      DoubledSum(g[1..], p[1..]);
    }
  }

  // ---------------------------------------------------------------------
  // Full oscillations: minima forward, then maxima backward
  // ---------------------------------------------------------------------

  /** `zip(ys, x1s, x2s)` written as rows `(y, x2 - x1)`; stops at the
      shortest input. */
  function ZipRows(ys: seq<real>, x1s: seq<real>, x2s: seq<real>): (r: seq<Row>)
    ensures |r| <= |ys| && |r| <= |x1s| && |r| <= |x2s|
    ensures |r| == |ys| || |r| == |x1s| || |r| == |x2s|
    ensures forall k :: 0 <= k < |r| ==> r[k] == Row(ys[k], x2s[k] - x1s[k])
  {
    if |ys| == 0 || |x1s| == 0 || |x2s| == 0 then []
    else [Row(ys[0], x2s[0] - x1s[0])] + ZipRows(ys[1..], x1s[1..], x2s[1..])
  }

  function Reverse<T>(s: seq<T>): (r: seq<T>)
    ensures |r| == |s| && forall k :: 0 <= k < |s| ==> r[k] == s[|s| - 1 - k]
  {
    if |s| == 0 then [] else Reverse(s[1..]) + [s[0]]
  }

  /** `itertools.islice(s, 1, None)`. */
  function Tail<T>(s: seq<T>): seq<T> {
    if |s| == 0 then [] else s[1..]
  }

  function Angles(ms: seq<Merged>): (r: seq<real>)
    ensures |r| == |ms| && forall k :: 0 <= k < |ms| ==> r[k] == ms[k].angle
  {
    seq(|ms|, k requires 0 <= k < |ms| => ms[k].angle)
  }

  /** `n - 1` consecutive pairs among `n` elements (none for an empty list). */
  function Pairs(n: nat): nat {
    if n == 0 then 0 else n - 1
  }

  /** `zip(min_y, min_x, islice(min_x, 1, None))`. */
  function ForwardRows(mins: seq<Merged>): seq<Row> {
    ZipRows(Angles(mins), Times(mins), Tail(Times(mins)))
  }

  /** `zip(reversed(max_y), islice(reversed(max_x), 1, None), reversed(max_x))`. */
  function BackwardRows(maxs: seq<Merged>): seq<Row> {
    var rt := Reverse(Times(maxs));
    ZipRows(Reverse(Angles(maxs)), Tail(rt), rt)
  }

  /** The full-oscillation rows, written as the source chains its zips. */
  function FullRows(mins: seq<Merged>, maxs: seq<Merged>): seq<Row> {
    ForwardRows(mins) + BackwardRows(maxs)
  }

  /** Minima forward: `(min_y[k], min_x[k+1] - min_x[k])` for every k. */
  lemma ForwardRowsContent(mins: seq<Merged>)
    ensures |ForwardRows(mins)| == Pairs(|mins|)
    ensures forall k :: 0 <= k < Pairs(|mins|) ==>
              ForwardRows(mins)[k] == Row(mins[k].angle, mins[k + 1].time - mins[k].time)
  {
    var ts := Times(mins);
    assert |Tail(ts)| == Pairs(|mins|);
    assert forall k :: 0 <= k < |Tail(ts)| ==> Tail(ts)[k] == ts[k + 1];
  }

  /** Maxima backward: `(max_y[j], max_x[j] - max_x[j-1])` for j from the last
      index down to 1. */
  lemma BackwardRowsContent(maxs: seq<Merged>)
    ensures |BackwardRows(maxs)| == Pairs(|maxs|)
    ensures forall j :: 1 <= j < |maxs| ==>
              BackwardRows(maxs)[|maxs| - 1 - j] == Row(maxs[j].angle, maxs[j].time - maxs[j - 1].time)
  {
    var rt := Reverse(Times(maxs));
    var ra := Reverse(Angles(maxs));
    assert |Tail(rt)| == Pairs(|maxs|);
    forall j | 1 <= j < |maxs|
      ensures BackwardRows(maxs)[|maxs| - 1 - j] == Row(maxs[j].angle, maxs[j].time - maxs[j - 1].time)
    {
      var m := |maxs| - 1 - j;
      assert Tail(rt)[m] == rt[m + 1] == maxs[j - 1].time;
      assert rt[m] == maxs[j].time;
      assert ra[m] == maxs[j].angle;
    }
  }

  /** Full mode writes the minima rows forward, then the maxima rows from
      the last maximum backwards. */
  lemma FullRowsContent(mins: seq<Merged>, maxs: seq<Merged>)
    ensures |FullRows(mins, maxs)| == Pairs(|mins|) + Pairs(|maxs|)
    ensures forall k :: 0 <= k < Pairs(|mins|) ==>
              FullRows(mins, maxs)[k] == Row(mins[k].angle, mins[k + 1].time - mins[k].time)
    ensures forall j :: 1 <= j < |maxs| ==>
              FullRows(mins, maxs)[Pairs(|mins|) + (|maxs| - 1 - j)] == Row(maxs[j].angle, maxs[j].time - maxs[j - 1].time)
  {
    ForwardRowsContent(mins);
    BackwardRowsContent(maxs);
  }

  // ---------------------------------------------------------------------
  // The script
  // ---------------------------------------------------------------------

  /** The raw peak finder, `signal.find_peaks(series, height=0, threshold=0)`,
      taken as given: it returns strictly increasing indices into its input. */
  type PeakFinder = seq<real> -> seq<nat>

  ghost predicate ValidFinder(findPeaks: PeakFinder) {
    forall s :: InRange(findPeaks(s), |s|)
  }

  datatype ProcessError =
    | LoadFailed(cause: LoadError) // `load_data` raises
    | NoExtrema                    // `np.max` of an empty `x_stdev` array raises

  /** `main`: load, optionally keep the first `n` samples, extract extrema,
      and produce the output rows of the selected mode. The largest time
      spread is printed before anything is written, and `np.max` of an
      empty array raises, so a series without a maximum or without a
      minimum stops the script. */
  method Process(lines: seq<string>, parse: RealParser, findPeaks: PeakFinder, threshold: real,
                 sqrt: Sqrt, halfOscillations: bool, n: Option<int>)
    returns (r: Result<seq<Row>, ProcessError>)
    requires ValidFinder(findPeaks)
    ensures LoadSeries(lines, parse).Failure? ==> r == Failure(LoadFailed(LoadSeries(lines, parse).error))
    ensures LoadSeries(lines, parse).Success? ==>
      var series := LoadSeries(lines, parse).value;
      var x := if n.Some? then PyPrefix(series.0, n.value) else series.0;
      var y := if n.Some? then PyPrefix(series.1, n.value) else series.1;
      var maxPeaks := findPeaks(y);
      var minPeaks := findPeaks(Neg(y));
      var maxima := Clustered(Select(x, maxPeaks), Select(y, maxPeaks), threshold, sqrt);
      var minima := Clustered(Select(x, minPeaks), Select(y, minPeaks), threshold, sqrt);
      && (r.Success? <==> |maxPeaks| > 0 && |minPeaks| > 0)
      && (r.Failure? ==> r.error == NoExtrema)
      && (r.Success? ==>
            r.value == if halfOscillations then HalfRows(MergeByTime(Tag(Minimum, minima), Tag(Maximum, maxima)))
                       else FullRows(minima, maxima))
  {
    var loaded := LoadSeries(lines, parse);
    if loaded.Failure? {
      return Failure(LoadFailed(loaded.error));
    }
    var x, y := loaded.value.0, loaded.value.1;
    if n.Some? {
      x := PyPrefix(x, n.value);
      y := PyPrefix(y, n.value);
    }
    var maxima, minima := Extrema(x, y, findPeaks(y), findPeaks(Neg(y)), threshold, sqrt);
    if |maxima| == 0 || |minima| == 0 {
      return Failure(NoExtrema);
    }
    if halfOscillations {
      var merged := HalfMerge(Tag(Minimum, minima), Tag(Maximum, maxima));
      r := Success(HalfRows(merged));
    } else {
      r := Success(FullRows(minima, maxima));
    }
  }
}

=== FILE: stats.dfy ===
/** The numerical aggregates the scripts take from Python and numpy, over
    exact reals: `sum`, `np.mean`, `np.std` (population form, before the
    square root), `max`, and the consecutive differences of a series. */
module Stats {

  function Sum(s: seq<real>): real {
    if |s| == 0 then 0.0 else s[0] + Sum(s[1..])
  }

  function Mean(s: seq<real>): real
    requires |s| > 0
  {
    Sum(s) / (|s| as real)
  }

  /** Sum of squared deviations of `s` from `m`. */
  function SquaredDeviation(s: seq<real>, m: real): real {
    if |s| == 0 then 0.0 else (s[0] - m) * (s[0] - m) + SquaredDeviation(s[1..], m)
  }

  /** Population variance (`np.var` with `ddof=0`); `np.std` is its square root. */
  function Variance(s: seq<real>): real
    requires |s| > 0
  {
    SquaredDeviation(s, Mean(s)) / (|s| as real)
  }

  function Abs(x: real): (r: real)
    ensures r >= 0.0 && (r == x || r == -x)
  {
    if x < 0.0 then -x else x
  }

  /** Python's two-argument `max` on numbers. */
  function Max(a: real, b: real): (r: real)
    ensures r >= a && r >= b && (r == a || r == b)
  {
    if a < b then b else a
  }

  /** Python's `max` over a non-empty iterable. */
  function MaxOf(s: seq<real>): (r: real)
    requires |s| > 0
    ensures forall i :: 0 <= i < |s| ==> s[i] <= r
    ensures r in s
  {
    if |s| == 1 then s[0] else Max(s[0], MaxOf(s[1..]))
  }

  /** Python's `min` over a non-empty iterable. */
  function MinOf(s: seq<real>): (r: real)
    requires |s| > 0
    ensures forall i :: 0 <= i < |s| ==> r <= s[i]
    ensures r in s
  {
    if |s| == 1 then s[0] else
      var m := MinOf(s[1..]);
      if s[0] <= m then s[0] else m
  }

  /** Element-wise negation, numpy's unary minus on an array. */
  function Neg(s: seq<real>): (r: seq<real>)
    ensures |r| == |s|
    ensures forall i {:trigger r[i]} :: 0 <= i < |s| ==> r[i] == -s[i]
  {
    if |s| == 0 then [] else [-s[0]] + Neg(s[1..])
  }

  /** Consecutive differences `b - a for a, b in zip(t, t[1:])`. */
  function Gaps(t: seq<real>): (g: seq<real>)
    ensures |g| == if |t| == 0 then 0 else |t| - 1
    ensures forall i {:trigger g[i]} :: 0 <= i < |g| ==> g[i] == t[i + 1] - t[i]
  {
    if |t| < 2 then [] else [t[1] - t[0]] + Gaps(t[1..])
  }

  /** A sum is bounded by its length times the bounds of its elements. */
  lemma {:induction false} SumBounds(s: seq<real>, lo: real, hi: real)
    requires forall i :: 0 <= i < |s| ==> lo <= s[i] <= hi
    ensures (|s| as real) * lo <= Sum(s) <= (|s| as real) * hi
  {
    if |s| > 0 {
      SumBounds(s[1..], lo, hi);
    }
  }

  /** The mean lies between any lower and upper bound of the elements. */
  lemma MeanWithin(s: seq<real>, lo: real, hi: real)
    requires |s| > 0
    requires forall i :: 0 <= i < |s| ==> lo <= s[i] <= hi
    ensures lo <= Mean(s) <= hi
  {
    SumBounds(s, lo, hi);
    var n := |s| as real;
    assert Sum(s) / n >= (n * lo) / n;
    assert Sum(s) / n <= (n * hi) / n;
  }

  /** The mean of a series lies between its smallest and largest element. */
  lemma MeanBetweenExtremes(s: seq<real>)
    requires |s| > 0
    ensures MinOf(s) <= Mean(s) <= MaxOf(s)
  {
    MeanWithin(s, MinOf(s), MaxOf(s));
  }

  lemma {:induction false} SumNeg(s: seq<real>)
    ensures Sum(Neg(s)) == -Sum(s)
  {
    if |s| > 0 {
      SumNeg(s[1..]);
      assert Neg(s)[1..] == Neg(s[1..]);
    }
  }

  /** Negating a series negates its mean. */
  lemma MeanNeg(s: seq<real>)
    requires |s| > 0
    ensures Mean(Neg(s)) == -Mean(s)
  {
    SumNeg(s);
    MeanOfOppositeSum(s, Neg(s));
  }

  /** Two series of the same length with opposite sums have opposite means. */
  lemma MeanOfOppositeSum(s: seq<real>, r: seq<real>)
    requires |s| > 0 && |r| == |s| && Sum(r) == -Sum(s)
    ensures Mean(r) == -Mean(s)
  {
    var n := |s| as real;
    var x := Sum(s);
    MeanIs(r, -x, n);
    MeanIs(s, x, n);
    DivNeg(x, n, Mean(r), Mean(s));
  }

  lemma MeanIs(s: seq<real>, total: real, n: real)
    requires |s| > 0 && Sum(s) == total && n == |s| as real
    ensures Mean(s) == total / n
  {
  }

  lemma DivNeg(x: real, n: real, p: real, q: real)
    requires n != 0.0 && p == (-x) / n && q == x / n
    ensures p == -q
  {
    assert q * n == x;
    assert (-q) * n == -x;
  }

  /** The gaps of a series telescope: their sum is last minus first. */
  lemma {:induction false} GapsTelescope(t: seq<real>)
    requires |t| > 0
    ensures Sum(Gaps(t)) == t[|t| - 1] - t[0]
  {
    if |t| >= 2 {
      GapsTelescope(t[1..]);
      assert Gaps(t) == [t[1] - t[0]] + Gaps(t[1..]);
    }
  }

  /** The mean of consecutive gaps is the overall span divided by the number
      of gaps. */
  lemma MeanOfGaps(t: seq<real>)
    requires |t| >= 2
    ensures Mean(Gaps(t)) == (t[|t| - 1] - t[0]) / ((|t| - 1) as real)
  {
    GapsTelescope(t);
    var g := Gaps(t);
    var n := (|t| - 1) as real;
    assert |g| as real == n;
    assert Sum(g) == t[|t| - 1] - t[0];
    assert Mean(g) == Sum(g) / n;
  }

  /** A single value has no spread. */
  lemma SingletonVariance(a: real)
    ensures Variance([a]) == 0.0
  {
    assert [a][1..] == [];
    assert Sum([a]) == a;
    assert Mean([a]) == a;
    assert SquaredDeviation([a], a) == 0.0;
  }

  lemma {:induction false} SquaredDeviationNonNegative(s: seq<real>, m: real)
    ensures SquaredDeviation(s, m) >= 0.0
  {
    if |s| > 0 {
      SquaredDeviationNonNegative(s[1..], m);
      SquareNonNegative(s[0] - m);
    }
  }

  lemma SquareNonNegative(d: real)
    ensures d * d >= 0.0
  {
    if d < 0.0 {
      assert d * d == (-d) * (-d);
    }
  }

  lemma VarianceNonNegative(s: seq<real>)
    requires |s| > 0
    ensures Variance(s) >= 0.0
  {
    SquaredDeviationNonNegative(s, Mean(s));
  }
}

=== FILE: text.dfy ===
/** The string operations the scripts use on their input lines:
    `str.strip()`, `str.split()`, `str.split(sep)`, `str.lower()`,
    `str.startswith` / `str.endswith`, and the shared "blank or `#` comment"
    line filter. */
module Text {

  /** Whitespace as Python's `str.split()` and `str.strip()` see it, restricted
      to the ASCII range (tab through carriage return, the four information
      separators 0x1C-0x1F, and space). */
  predicate IsSpace(c: char) {
    c == ' ' || ('\t' <= c <= '\r') || (28 <= c as int <= 31)
  }

  predicate StartsWith(s: string, prefix: string) {
    |prefix| <= |s| && s[..|prefix|] == prefix
  }

  predicate EndsWith(s: string, suffix: string) {
    |suffix| <= |s| && s[|s| - |suffix|..] == suffix
  }

  /** Drops leading whitespace. */
  function TrimStart(s: string): (r: string)
    ensures |r| <= |s| && r == s[|s| - |r|..]
    ensures |r| == 0 || !IsSpace(r[0])
    ensures forall i :: 0 <= i < |s| - |r| ==> IsSpace(s[i])
    decreases |s|
  {
    if |s| > 0 && IsSpace(s[0]) then TrimStart(s[1..]) else s
  }

  /** Drops trailing whitespace. */
  function TrimEnd(s: string): (r: string)
    ensures |r| <= |s| && r == s[..|r|]
    ensures |r| == 0 || !IsSpace(r[|r| - 1])
    ensures forall i :: |r| <= i < |s| ==> IsSpace(s[i])
    decreases |s|
  {
    if |s| > 0 && IsSpace(s[|s| - 1]) then TrimEnd(s[..|s| - 1]) else s
  }

  /** `str.strip()` with no argument. */
  function Strip(s: string): (r: string)
    ensures |r| == 0 || (!IsSpace(r[0]) && !IsSpace(r[|r| - 1]))
  {
    TrimEnd(TrimStart(s))
  }

  /** Index one past the end of the run of non-space characters starting at `i`. */
  function WordEnd(s: string, i: nat): (e: nat)
    requires i <= |s|
    ensures i <= e <= |s|
    ensures forall k :: i <= k < e ==> !IsSpace(s[k])
    ensures e == |s| || IsSpace(s[e])
    decreases |s| - i
  {
    if i == |s| || IsSpace(s[i]) then i else WordEnd(s, i + 1)
  }

  /** `str.split()` with no argument: the maximal runs of non-space
      characters, in order; never an empty token. Together the tokens hold
      every non-space character of `s`, in order. */
  function Tokens(s: string): (r: seq<string>)
    ensures forall k :: 0 <= k < |r| ==> IsWord(r[k])
    decreases |s|
  {
    var t := TrimStart(s);
    if |t| == 0 then []
    else
      var e := WordEnd(t, 0);
      assert e > 0;
      var w := t[..e];
      assert IsWord(w);
      var tail := t[e..];
      assert |tail| < |s|;
      var rest := Tokens(tail);
      [w] + rest
  }

  /** Together the tokens hold every non-space character of `s`, in
      order. */
  lemma {:induction false} TokensText(s: string)
    ensures Concat(Tokens(s)) == NonSpace(s)
    decreases |s|
  {
    var t := TrimStart(s);
    if |t| == 0 {
      NonSpaceOfSpaces(s);
    } else {
      var e := WordEnd(t, 0);
      var w, tail, lead := t[..e], t[e..], s[..|s| - |t|];
      TokensText(tail);
      TokensStep(s);
      ConcatCons(w, Tokens(tail));
      LeadIsSpace(s);
      WordIsWord(t);
      SliceParts(s, |s| - |t|, e);
      NonSpaceSplit(lead, w, tail);
    }
  }

  /** One step of `split()`: the first word after the leading whitespace,
      then the tokens of what follows it. */
  lemma TokensStep(s: string)
    requires |TrimStart(s)| > 0
    ensures var t := TrimStart(s);
            var e := WordEnd(t, 0);
            Tokens(s) == [t[..e]] + Tokens(t[e..])
  {
  }

  /** Gluing a list that starts with `w` starts with `w`. */
  lemma ConcatCons(w: string, ws: seq<string>)
    ensures Concat([w] + ws) == w + Concat(ws)
  {
    assert ([w] + ws)[1..] == ws;
  }

  /** What `TrimStart` drops is whitespace. */
  lemma LeadIsSpace(s: string)
    ensures var lead := s[..|s| - |TrimStart(s)|];
            forall i :: 0 <= i < |lead| ==> IsSpace(lead[i])
  {
    var lead := s[..|s| - |TrimStart(s)|];
    forall i | 0 <= i < |lead| ensures IsSpace(lead[i]) {
      assert lead[i] == s[i];
    }
  }

  /** The run up to the first space has no space in it. */
  lemma WordIsWord(t: string)
    ensures var w := t[..WordEnd(t, 0)];
            forall i :: 0 <= i < |w| ==> !IsSpace(w[i])
  {
    var w := t[..WordEnd(t, 0)];
    forall i | 0 <= i < |w| ensures !IsSpace(w[i]) {
      assert w[i] == t[i];
    }
  }

  /** A string is its first `k` characters, the next `e`, and the rest. */
  lemma SliceParts<T>(s: seq<T>, k: nat, e: nat)
    requires k + e <= |s|
    ensures s == s[..k] + (s[k..][..e] + s[k..][e..])
  {
    assert s[k..][..e] + s[k..][e..] == s[k..];
  }

  /** Leading spaces contribute nothing and a word contributes itself. */
  lemma NonSpaceSplit(lead: string, w: string, tail: string)
    requires forall i :: 0 <= i < |lead| ==> IsSpace(lead[i])
    requires forall i :: 0 <= i < |w| ==> !IsSpace(w[i])
    ensures NonSpace(lead + (w + tail)) == w + NonSpace(tail)
  {
    NonSpaceOfSpaces(lead);
    NonSpaceOfWord(w);
    NonSpaceAppend(w, tail);
    NonSpaceAppend(lead, w + tail);
  }

  /** The characters of `s` that are not whitespace, in order. */
  function NonSpace(s: string): string {
    if |s| == 0 then [] else (if IsSpace(s[0]) then [] else [s[0]]) + NonSpace(s[1..])
  }

  /** The strings of `ws` glued together. */
  function Concat(ws: seq<string>): string {
    if |ws| == 0 then [] else ws[0] + Concat(ws[1..])
  }

  lemma {:induction false} NonSpaceAppend(a: string, b: string)
    ensures NonSpace(a + b) == NonSpace(a) + NonSpace(b)
  {
    if |a| > 0 {
      NonSpaceAppend(a[1..], b);
      assert (a + b)[1..] == a[1..] + b;
    } else {
      assert a + b == b;
    }
  }

  lemma {:induction false} NonSpaceOfSpaces(s: string)
    requires forall i :: 0 <= i < |s| ==> IsSpace(s[i])
    ensures NonSpace(s) == []
  {
    if |s| > 0 {
      NonSpaceOfSpaces(s[1..]);
    }
  }

  lemma {:induction false} NonSpaceOfWord(s: string)
    requires forall i :: 0 <= i < |s| ==> !IsSpace(s[i])
    ensures NonSpace(s) == s
  {
    if |s| > 0 {
      NonSpaceOfWord(s[1..]);
    }
  }

  /** Splitting words joined by single spaces gives back the words: the
      tokens are the maximal non-space runs, never a part of one. */
  lemma {:induction false} TokensOfJoin(ws: seq<string>)
    requires |ws| > 0 && forall k :: 0 <= k < |ws| ==> IsWord(ws[k])
    ensures Tokens(Join(ws, ' ')) == ws
  {
    assert IsWord(ws[0]);
    HeadTail(ws);
    if |ws| == 1 {
      TokensOfWord(ws[0]);
    } else {
      assert forall k :: 0 <= k < |ws| - 1 ==> ws[1..][k] == ws[k + 1];
      TokensOfJoin(ws[1..]);
      JoinStartsWithWord(ws[1..]);
      TokensOfWordSpace(ws[0], Join(ws[1..], ' '));
    }
  }

  /** A non-empty sequence is its head followed by its tail. */
  lemma HeadTail<T>(s: seq<T>)
    requires |s| > 0
    ensures s == [s[0]] + s[1..]
    ensures |s| == 1 ==> s == [s[0]]
  {
  }

  /** A lone word is its own only token. */
  lemma TokensOfWord(w: string)
    requires IsWord(w)
    ensures Tokens(w) == [w]
  {
    assert TrimStart(w) == w;
    WordEndAt(w, 0, |w|);
    assert w[..|w|] == w;
  }

  /** A word, a space and a string starting with a non-space: the word is
      the first token and the rest are the string's tokens. */
  lemma TokensOfWordSpace(w: string, rest: string)
    requires IsWord(w) && |rest| > 0 && !IsSpace(rest[0])
    ensures Tokens(w + [' '] + rest) == [w] + Tokens(rest)
  {
    var s := w + [' '] + rest;
    AroundOne(w, ' ', rest);
    forall k | 0 <= k < |w| ensures !IsSpace(s[k]) {
      assert s[k] == w[k];
    }
    WordEndAt(s, 0, |w|);
    TokensOfStart(s, |w|);
    TokensSameStart([' '] + rest, rest);
  }

  /** Splitting `a + [x] + b` just before and just after `x`. */
  lemma AroundOne<T>(a: seq<T>, x: T, b: seq<T>)
    ensures |a + [x] + b| == |a| + 1 + |b|
    ensures (a + [x] + b)[|a|] == x
    ensures |a| > 0 ==> (a + [x] + b)[0] == a[0]
    ensures (a + [x] + b)[..|a|] == a
    ensures (a + [x] + b)[|a|..] == [x] + b
    ensures ([x] + b)[0] == x && ([x] + b)[1..] == b
  {
  }

  /** A string starting with a non-space: its first token runs to the
      first space. */
  lemma TokensOfStart(s: string, e: nat)
    requires 0 < e <= |s| && !IsSpace(s[0]) && WordEnd(s, 0) == e
    ensures Tokens(s) == [s[..e]] + Tokens(s[e..])
  {
  }

  /** One leading space before a string that starts with a non-space does
      not change its tokens. */
  lemma TokensSameStart(a: string, b: string)
    requires |a| > 0 && IsSpace(a[0]) && a[1..] == b
    requires |b| > 0 && !IsSpace(b[0])
    ensures Tokens(a) == Tokens(b)
  {
    assert TrimStart(a) == TrimStart(b) == b;
  }

  /** Words joined by spaces start with the first word's first character. */
  lemma JoinStartsWithWord(ws: seq<string>)
    requires |ws| > 0 && IsWord(ws[0])
    ensures |Join(ws, ' ')| > 0 && Join(ws, ' ')[0] == ws[0][0]
  {
  }

  /** The word starting at `i` ends at `n` when `s[i..n]` has no space and
      `s[n]` is one (or `n` is the end). */
  lemma {:induction false} WordEndAt(s: string, i: nat, n: nat)
    requires i <= n <= |s|
    requires forall k :: i <= k < n ==> !IsSpace(s[k])
    requires n == |s| || IsSpace(s[n])
    ensures WordEnd(s, i) == n
    decreases n - i
  {
    if i < n {
      WordEndAt(s, i + 1, n);
    }
  }

  /** A token of `str.split()`: non-empty, no whitespace inside. */
  predicate IsWord(w: string) {
    |w| > 0 && forall i :: 0 <= i < |w| ==> !IsSpace(w[i])
  }

  /** The position of the first `sep` in `s`. */
  function IndexOf(s: string, sep: char): (i: nat)
    requires sep in s
    ensures i < |s| && s[i] == sep && sep !in s[..i]
  {
    if s[0] == sep then 0 else IndexOf(s[1..], sep) + 1
  }

  /** `str.split(sep)` for a one-character separator: empty pieces are kept,
      so the result always has one piece more than `s` has separators. */
  function SplitOn(s: string, sep: char): (r: seq<string>)
    ensures |r| == multiset(s)[sep] + 1
    ensures forall k :: 0 <= k < |r| ==> sep !in r[k]
    decreases |s|
  {
    if sep !in s then
      assert multiset(s)[sep] == 0;
      [s]
    else
      var i := IndexOf(s, sep);
      assert s == s[..i] + [sep] + s[i + 1..];
      assert multiset(s) == multiset(s[..i]) + multiset([sep]) + multiset(s[i + 1..]);
      [s[..i]] + SplitOn(s[i + 1..], sep)
  }

  /** Inverse of `SplitOn`: glue the pieces back together with `sep`. */
  function Join(pieces: seq<string>, sep: char): string
    requires |pieces| > 0
  {
    if |pieces| == 1 then pieces[0] else pieces[0] + [sep] + Join(pieces[1..], sep)
  }

  /** Splitting loses nothing: joining the pieces restores the string. */
  lemma {:induction false} JoinSplit(s: string, sep: char)
    ensures Join(SplitOn(s, sep), sep) == s
    decreases |s|
  {
    if sep in s {
      var i := IndexOf(s, sep);
      JoinSplit(s[i + 1..], sep);
      assert s == s[..i] + [sep] + s[i + 1..];
    }
  }

  function LowerChar(c: char): (r: char)
    ensures 'A' <= c <= 'Z' ==> 'a' <= r <= 'z' && r as int - c as int == 32
    ensures !('A' <= c <= 'Z') ==> r == c
  {
    if 'A' <= c <= 'Z' then (c as int + 32) as char else c
  }

  /** `str.lower()` on ASCII text: no upper-case letter is left, each
      upper-case letter becomes its lower-case partner, and every other
      character is kept. */
  function Lower(s: string): (r: string)
    ensures |r| == |s|
    ensures forall i :: 0 <= i < |s| ==> !('A' <= r[i] <= 'Z')
    ensures forall i :: 0 <= i < |s| && 'A' <= s[i] <= 'Z' ==> r[i] as int == s[i] as int + 32
    ensures forall i :: 0 <= i < |s| && !('A' <= s[i] <= 'Z') ==> r[i] == s[i]
  {
    seq(|s|, i requires 0 <= i < |s| => LowerChar(s[i]))
  }

  /** The filter every loader shares: after stripping, the line is empty or
      starts with `#`. */
  predicate IsSkipped(line: string) {
    var t := Strip(line);
    |t| == 0 || t[0] == '#'
  }

  /** The tokens of a line as the loaders compute them (`line.strip().split()`). */
  function Fields(line: string): seq<string> {
    Tokens(Strip(line))
  }

  /** A line that survives the filter always has a first token, so `pcs[0]`
      never fails; only `pcs[1]` onwards can be missing. */
  lemma KeptLineHasField(line: string)
    requires !IsSkipped(line)
    ensures |Fields(line)| >= 1
    ensures Fields(line)[0][0] != '#'
  {
    var t := Strip(line);
    assert TrimStart(t) == t;
    var e := WordEnd(t, 0);
    assert Fields(line) == [t[..e]] + Tokens(t[e..]);
  }

  /** The fields of every kept line, in file order. */
  function KeptFields(lines: seq<string>): (r: seq<seq<string>>)
    ensures |r| <= |lines|
    ensures forall k :: 0 <= k < |r| ==> |r[k]| >= 1
  {
    if |lines| == 0 then []
    else if IsSkipped(lines[0]) then KeptFields(lines[1..])
    else
      KeptLineHasField(lines[0]);
      [Fields(lines[0])] + KeptFields(lines[1..])
  }

  /** Number of lines the filter keeps. */
  function KeptCount(lines: seq<string>): nat {
    if |lines| == 0 then 0
    else (if IsSkipped(lines[0]) then 0 else 1) + KeptCount(lines[1..])
  }

  /** One entry per kept line: blank and comment lines contribute nothing. */
  lemma {:induction false} KeptFieldsCount(lines: seq<string>)
    ensures |KeptFields(lines)| == KeptCount(lines)
  {
    if |lines| > 0 {
      KeptFieldsCount(lines[1..]);
    }
  }
}

=== FILE: wrappers.dfy ===
/** Failure-compatible result types shared by every module of the model.
    A Python exception or a `sys.exit(1)` in the scripts becomes a `Failure`. */
module Wrappers {

  datatype Option<+T> = None | Some(value: T) {
    predicate IsFailure() {
      None?
    }

    function PropagateFailure<U>(): Option<U>
      requires None?
    {
      None
    }

    function Extract(): T
      requires Some?
    {
      value
    }

    /** The value as a `Result`, with `error` standing for the absent case. */
    function ToResult<E>(error: E): Result<T, E> {
      match this
      case Some(v) => Success(v)
      case None => Failure(error)
    }
  }

  datatype Result<+R, +E> = Success(value: R) | Failure(error: E) {
    predicate IsFailure() {
      Failure?
    }

    function PropagateFailure<U>(): Result<U, E>
      requires Failure?
    {
      Failure(error)
    }

    function Extract(): R
      requires Success?
    {
      value
    }
  }
}
